=== FILE: README.md ===
# travis_ssh_deploy in Dafny

This project models the core of travis_ssh_deploy. The tool has two parts:

- **A sender** (`send`) writes the files named on its command line to standard output in a small framed format.
- **A receiver** (`receive`) runs as a forced SSH command. It reads `SSH_ORIGINAL_COMMAND`, picks a deploy plan from its configuration and runs the plan's steps in order:
  - `receive_files` reads the frames from standard input into a fresh staging directory;
  - `move_files` renames the received files into place;
  - `command` runs a program.

## The model

The modules follow the program's structure:

- `Bytes`, `Failures`, `Stream`: bytes, big-endian words, the error kinds and `Result`. `Stream` reads fields off the front of the unread input.
- `Varint`: unsigned LEB128 varints, standing for `write_varint` and `read_varint` on a `usize`. The model's reader is defined to give up after ten bytes and to reject values of 2^64 and above, the limit of a 64-bit `usize`.
- `Utf8`: UTF-8 encoding of Rust strings (`String::bytes`) and the validity check of `String::from_utf8`.
- `Wire`: the constants of the format and the `FileEntry` record. The constants are:
  - the magic `FE ED BE EF`;
  - version 2;
  - compression code 0;
  - names of at most 512 bytes;
  - files of at most 104 857 600 bytes.
- `Send`: the encoder of `send.rs`. It writes the header, the file count and one frame per file, and stops at the first file that cannot be opened.
- `Receive`: `receive_files` as a parser of the whole input. It checks:
  - the header and the declared count against the plan's `expected_files`;
  - the staging directory;
  - each frame field by field: compression, name length, UTF-8 name, checksum, size limit, staged-file creation, content and CRC;
  - the final list, compared as sorted vectors.
- `NameOrder`: the byte-wise order of Rust strings and insertion sort. With them, "equal after sorting" is proved to mean "equal as multisets".
- `ReceiveChecks`: every error path of `receive_files`, each as a lemma on a concrete input shape.
- `RoundTrip`: receiving what the sender wrote gives back exactly the files, and leaves exactly what followed. A sender that stops early is always rejected.
- `Paths`: `Path::join` on Unix byte paths.
- `Plans`: the plan types and `Step::execute`, folded over the steps by `deploy`. The fold stops at the first failure.
- `Ssh`: the tokenizer of `SSH_ORIGINAL_COMMAND` and the dispatch in `main`.

Some inputs are parameters of the model rather than modelled computations:

- **CRC32** (`crc32::IEEE`) is a function parameter. Every property holds for any checksum function; the streaming digest is modelled by the bytes fed so far.
- **The operating system's answers** are an `Env` of functions indexed by step number:
  - the directory `TempDir::new` creates, or none when it fails;
  - whether `File::create` of a staged file succeeds;
  - whether `fs::rename` succeeds;
  - how a command ends.
- **The chunk sizes `read` returns** are a function parameter of the two loop methods (`Send.Measure`, `Receive.ReadContent`).

The staging directory's contents are a map from staged path (`Join(tmp, name)`) to contents:

- Creating a file truncates it, so a later frame with the same name wins.
- A rename moves the entry to its destination and replaces whatever was there. Renaming a path onto itself changes nothing.
- A successful receive replaces the whole map. Assigning a new `TempDir` drops the old one, which deletes its directory.
- Paths are keys by their bytes. Two spellings of one file, such as `tmp/a`, `tmp/./a` and `tmp//a`, are two keys of the map (see "Left out").

Points worth noting where the code is easy to misread:

- The `List` check compares sorted vectors, so repeated names count; it is a multiset check, not a set check.
- A `List` expectation first demands that the declared count equal the list's length.
- The staging directory is a local value until the receive succeeds. A failing receive therefore drops it, and the files created inside it are deleted with it. Files created outside it, through an absolute name or one that climbs out with `..`, stay behind. The plan state keeps the previous receive, if any.
- A later successful receive replaces the staging directory; it is not set only once.
- A missing staging directory and a missing file list are two distinct errors.
- A command that cannot be started fails its step even when `allow_failure` is set.
- `deploy` with no plan name, or with an unknown one, returns success.

## Model

| member | source | states |
|---|---|---|
| Bytes.BigEndian32RoundTrip | src/bin/send.rs:53 | a `u32` written big-endian is read back as the same value by `read_u32::<BigEndian>` |
| Bytes.BigEndian32Onto | src/bin/receive.rs:180 | every four bytes are the big-endian spelling of the word read from them |
| Stream.ReadExact | src/bin/receive.rs:140 | `read_exact` fails with end of input exactly when fewer bytes remain than asked for; on success it yields the first bytes of the input, as many as asked for, and the input after them |
| Stream.ReadU32Written | src/bin/receive.rs:180 | the checksum field written by the sender is read back unchanged, leaving what follows |
| Stream.RepeatThen | src/bin/receive.rs:166-215 | when one reader reads back each item from its writing, repeating it reads back a concatenation of writings item for item and leaves the tail |
| Stream.RepeatSuffix | src/bin/receive.rs:166-215 | a repeated read only consumes input: what remains is a suffix of what it started from |
| Varint.Read | src/bin/receive.rs:150 | the model's `read_varint::<usize>` yields a value below 2^64 and consumes at least one byte; it fails only with end of input or a bad varint |
| Varint.ReadShape | src/bin/receive.rs:150 | what was read is a terminated group of at most ten bytes carrying the value, followed by the rest of the input |
| Varint.RoundTrip | src/bin/send.rs:27 | `write_varint` of any 64-bit value is a readable encoding, read back as the same value with exactly the following input left over |
| Varint.EncodeFits | src/bin/send.rs:27 | every 64-bit value is written in at most ten bytes, so the reader's ten-byte limit never rejects a sender's varint |
| Varint.ReadEncoding | src/bin/receive.rs:173 | any terminated group of at most ten bytes with a 64-bit value is read as that value, whatever follows |
| Utf8.EncodeStringValid | src/bin/send.rs:32 | the bytes of any Rust string are valid UTF-8 |
| Utf8.DecodeString | src/bin/receive.rs:178 | every valid byte string decodes to a string whose UTF-8 encoding is those bytes |
| Utf8.ValidIsEncoded | src/bin/receive.rs:178 | `String::from_utf8` accepts exactly the byte strings that are encodings of some string |
| Utf8.CharWidth | src/bin/receive.rs:178 | the decoder's width of an encoded character is its encoded length, whatever bytes follow |
| NameOrder.Sort | src/bin/receive.rs:218-221 | `sort` returns an ordered permutation of its input |
| NameOrder.SortedUnique | src/bin/receive.rs:223 | two sorted sequences with the same multiset are equal |
| NameOrder.SortEqualIffSameNames | src/bin/receive.rs:217-226 | the sorted received names equal the sorted expected names if and only if the two lists are equal as multisets |
| Receive.ListCheckIsMultiset | src/bin/receive.rs:217-226 | the list check passes exactly when the received names and the expected list are the same multiset |
| Receive.ReadName | src/bin/receive.rs:167-178 | an accepted name is valid UTF-8 of at most 512 bytes |
| Receive.NameShape | src/bin/receive.rs:167-178 | an accepted name field is the compression byte 0, a readable varint of the name's length, and the name |
| Receive.ReadFrameHead | src/bin/receive.rs:167-185 | an accepted frame head has a valid name of at most 512 bytes and a declared length of at most 100 MiB |
| Receive.HeadShape | src/bin/receive.rs:167-185 | an accepted head is laid out as compression byte, name length, name, big-endian checksum and content length |
| Receive.ReadFrame | src/bin/receive.rs:166-210 | an accepted frame holds a file within the limits whose staged file could be created |
| Receive.FrameShape | src/bin/receive.rs:166-210 | an accepted frame is laid out as the frame of its file with the checksum of its content, followed by the rest |
| Receive.ReadFrames | src/bin/receive.rs:166-215 | reading `count` frames succeeds with exactly `count` files, each of them acceptable |
| Receive.FramesSuffix | src/bin/receive.rs:166-215 | the frame loop consumes a prefix of the input |
| Receive.ReadPreamble | src/bin/receive.rs:140-150 | the declared count is below 2^64 |
| Receive.PreambleShape | src/bin/receive.rs:140-150 | an accepted preamble is the magic, the version and a readable varint of the count |
| Receive.ReceiveFiles | src/bin/receive.rs:136-232 | a successful receive stages in the created directory a count of files the plan allows, with the expected names as a multiset when a list is given, each file acceptable |
| Receive.FramesShape | src/bin/receive.rs:166-215 | the input read by a run of accepted frames is their frames one after another, in the order of the files, followed by the unread rest |
| Receive.ReceiveShape | src/bin/receive.rs:136-232 | a successful receive started at a correct header and consumed a prefix of the input; the consumed part is the header, the file count as a varint, then one frame per received file in order |
| Receive.ReadContent | src/bin/receive.rs:189-206 | the chunked content loop reads exactly the declared length or fails with end of input, and its running CRC is the checksum of the bytes read |
| ReceiveChecks.ShortHeaderRejected | src/bin/receive.rs:140 | fewer than five bytes of input fail with end of input |
| ReceiveChecks.HeaderRejected | src/bin/receive.rs:142-148 | a wrong magic fails as bad magic; a right magic with a wrong version fails as bad version |
| ReceiveChecks.CountRejected | src/bin/receive.rs:152-161 | a declared count the plan does not allow fails with the count mismatch before any frame is read |
| ReceiveChecks.ListMismatchRejected | src/bin/receive.rs:217-226 | frames that are all accepted but whose names differ from the expected list as multisets fail the receive afterwards |
| ReceiveChecks.ListCheckCountsRepeats | src/bin/receive.rs:217-226 | `a, a, b` is rejected for the expected list `a, b, b`, although each list's names all occur in the other |
| ReceiveChecks.CompressionRejected | src/bin/receive.rs:167-171 | a nonzero compression byte fails the frame on that byte |
| ReceiveChecks.LongNameRejected | src/bin/receive.rs:173-176 | a name length above 512 fails before any name byte is read |
| ReceiveChecks.InvalidNameRejected | src/bin/receive.rs:177-178 | a name that is not valid UTF-8 fails the frame |
| ReceiveChecks.LargeFileRejected | src/bin/receive.rs:182-185 | a content length above 100 MiB fails before any content byte is read |
| ReceiveChecks.ShortContentRejected | src/bin/receive.rs:189-201 | input ending before the declared content length fails with end of input |
| ReceiveChecks.FrameAccepted | src/bin/receive.rs:187-214 | a frame with well-formed fields is accepted exactly when the content's CRC equals the declared one, and leaves exactly the bytes after the content |
| Send.Measure | src/bin/send.rs:36-50 | the first pass over a file measures its length and CRC, however `read` chunks it |
| Send.SendFrames | src/bin/send.rs:29-65 | the frame loop fails exactly when some file cannot be opened, and names a missing file |
| Send.SendAllPresent | src/bin/send.rs:20-68 | with every file present, the output is the header, the count and the frames of all files in order |
| Send.SendStopsAtMissing | src/bin/send.rs:29-36 | the first missing file stops the sender after it has written the frames before it and that file's name fields |
| RoundTrip.FrameRoundTrip | src/bin/send.rs:29-64 | the receiver reads back a sent frame as the same file, leaving exactly what followed, when the file is within the limits and its staged file can be created |
| RoundTrip.FramesRoundTrip | src/bin/send.rs:29-65 | the sent frames of acceptable files are read back as the same files in order |
| RoundTrip.EncodeRoundTrip | src/bin/receive.rs:136-232 | receiving what the sender wrote for files a plan accepts gives exactly those files in the staging directory and leaves the rest of the input |
| RoundTrip.EncodeRejectedByPlan | src/bin/receive.rs:152-161 | a well-formed transfer that the plan does not expect fails with a count mismatch or a list mismatch |
| RoundTrip.SendThenReceive | src/bin/send.rs:20-68 | when all named files exist and are deliverable, the sender succeeds and the receiver gets the files back with their names UTF-8 encoded |
| RoundTrip.FramesRejected | src/bin/receive.rs:166-210 | frames in which one file is not acceptable are rejected, whatever follows them: the frames before it are read and its own frame fails |
| RoundTrip.PartialSendRejected | src/bin/send.rs:29-36 | when a named file is missing, the sender reports it and whatever the sender wrote is rejected by the receiver, for any creatable-file answers and any plan, given only that the file count and the lengths of the names and contents written fit in a `usize` |
| Paths.JoinKeepsParts | src/bin/receive.rs:250 | joining a relative part keeps the base as prefix and the part as suffix with at most one separator; an absolute part replaces the base |
| Paths.JoinAssociative | src/bin/receive.rs:249-255 | joining relative parts one after another is joining them together |
| Plans.Staged | src/bin/receive.rs:187 | every received file has its staged path, and every staged path belongs to a received file |
| Plans.StagedLastWins | src/bin/receive.rs:187 | a staged path holds the content of the last file written to it |
| Plans.DestinationRule | src/bin/receive.rs:245-252 | a file goes to its mapped name if the plan maps it, else to its own name; with a working directory, a relative target lands below it (the directory is a prefix of the destination and the target a suffix) and an absolute target is kept as is |
| Plans.AbsoluteNameStaysPut | src/bin/receive.rs:245-256 | an unmapped absolute name with no working directory has its own staged path as destination |
| Plans.Rename | src/bin/receive.rs:254-257 | a rename puts the source's contents at the destination and empties the source; renaming a path onto itself changes nothing; every other path keeps its presence and its contents |
| Plans.MoveAll | src/bin/receive.rs:244-258 | renames happen in list order, one logged move per name; the loop fails exactly when it stops before the end of the list, and the error names the file it stopped at, with the renames before it kept |
| Plans.MoveAllFailure | src/bin/receive.rs:244-258 | the loop fails exactly when, after the renames before it succeeded, some name's staged file is missing or its rename is refused, and it stops at the first such name |
| Plans.MoveAllPaths | src/bin/receive.rs:244-258 | a staged file that no completed rename took as source is still there, with its contents when no rename targeted it either; a path appears only as the destination of a completed rename; a source is empty and a destination filled unless a later rename undid it |
| Plans.CleanMove | src/bin/receive.rs:244-258 | when every rename is allowed and the staged paths and destinations are distinct from each other, the move succeeds and each destination holds the contents staged for it |
| Plans.SharedDestinationSucceeds | src/bin/receive.rs:244-258 | two staged files mapped to one destination both move without error, and the destination ends with the second file's contents |
| Plans.InPlaceMoveRepeats | src/bin/receive.rs:244-258 | a name received twice whose destination is its own staged path is renamed onto itself twice without error |
| Plans.MissingSourceFails | src/bin/receive.rs:254-257 | a name whose staged file is gone, and which no earlier rename fills, makes the move fail at that name or before it |
| Plans.DuplicateNameFails | src/bin/receive.rs:244-257 | a name received twice makes the move fail by its second occurrence, unless a rename from its first occurrence up to the second puts a file back at its staged path |
| Plans.CommandOutcome | src/bin/receive.rs:278-280 | a command step fails exactly when the program cannot be started or exits unsuccessfully without `allow_failure` |
| Plans.Exec | src/bin/receive.rs:337-344 | each step keeps the log; a failing step leaves the state unchanged; a receive succeeds exactly when `receive_files` does, and then records the new staging directory and names, stages exactly the received files and consumes their frames, while a failed one keeps the staged files and input; a move before a receive fails with a missing staging directory or file list, otherwise it has the effect of the rename loop; a command step's error is the `allow_failure` rule |
| Plans.ReceiveThenMove | src/bin/receive.rs:228-258 | a receive followed by a clean move delivers every received file to its destination with the contents it was sent with |
| Plans.RunSteps | src/bin/receive.rs:124-129 | the step loop runs up to the end unless a step fails, and never rewrites effects already logged |
| Plans.RunStepsSplit | src/bin/receive.rs:124-129 | running the first steps and then the rest is running them all, with one shared state |
| Plans.StopsAtFirstFailure | src/bin/receive.rs:124-129 | a failed plan ends with the failing step's own result, computed from the state the earlier steps left; no later step runs |
| Plans.Deploy | src/bin/receive.rs:101-134 | without a plan name or with an unknown one nothing runs and the deploy succeeds; otherwise a successful deploy ran every step |
| Plans.MoveBeforeReceiveFails | src/bin/receive.rs:235-238 | a move step before any receive fails with a missing staging directory and does nothing else |
| Plans.FailedReceiveKeepsState | src/bin/receive.rs:228-229 | a failed receive keeps the state, the staged files and the log of before |
| Ssh.Pieces | src/bin/receive.rs:73-74 | `split(' ')` yields at least one piece and no piece contains a space |
| Ssh.GluePieces | src/bin/receive.rs:73-74 | gluing the pieces back with single spaces gives the command |
| Ssh.PiecesGlue | src/bin/receive.rs:73-74 | splitting spaceless pieces glued with single spaces gives the pieces back |
| Ssh.NonEmpty | src/bin/receive.rs:75 | the filter keeps exactly the non-empty pieces: every kept piece is a non-empty input piece, and every non-empty input piece is kept |
| Ssh.NonEmptyAppend | src/bin/receive.rs:75 | filtering a concatenation is concatenating the filtered parts, so the filter keeps the order of the pieces |
| Ssh.PiecesAtSpace | src/bin/receive.rs:73-74 | splitting at a space gives the pieces before it followed by the pieces after it |
| Ssh.Words | src/bin/receive.rs:73-76 | each word is non-empty and contains no space |
| Ssh.NoWordsIffBlank | src/bin/receive.rs:73-80 | the command has no words, the case `main` answers with the usage message, exactly when it is empty or all spaces |
| Ssh.InnerSpacesIgnored | src/bin/receive.rs:73-76 | one or two spaces between two parts of the command give the words of the first part followed by the words of the second |
| Ssh.WordsUnwords | src/bin/receive.rs:73-76 | non-empty spaceless words written with single spaces are split back into the same words |
| Ssh.SpacesIgnored | src/bin/receive.rs:73-76 | extra spaces at either end do not change the words |
| Ssh.Handle | src/bin/receive.rs:64-90 | no command, a command that is not UTF-8, or one with no word gives the usage failure; any other first word than `deploy` is reported as that word; `deploy` runs the plan named by the next word |
| Ssh.SuccessMeans | src/bin/receive.rs:85-98 | the exit status is success only for `deploy` whose plan ran to the end, was not named, or is not configured |
| Ssh.DeployWithoutPlanSucceeds | src/bin/receive.rs:104-117 | `deploy` with no plan name or an unknown one succeeds and does nothing |
| Ssh.BareDeploySucceeds | src/bin/receive.rs:104-108 | the bare command `deploy` succeeds whatever the configuration |

## Left out

- Loading the configuration is not modelled. That covers the config path argument, opening the file and parsing its YAML (`receive.rs:37-62`). The model starts from a parsed map of plans.
- Output is not modelled: `println!`/`eprintln!` text, the `no_command` banner, the step descriptions and the expletives. They do not affect any result.
- The environment variable `PATH` passed to commands is not modelled. The command's own result is an input of the model, through `Env.status`.
- Write errors of staged files (`f.write_all`, buffered by `BufWriter`) are not modelled; writing is assumed to succeed once `File::create` has.
- Removing the staging directory when a `TempDir` is dropped is modelled only as the staged map being replaced or left unchanged. The directory's own removal at the end of the run is not modelled.
- Files that a frame creates outside the staging directory are not modelled when the receive fails. A name that is absolute, or that climbs out with `..`, makes `File::create` (`receive.rs:187`) create or truncate a file elsewhere. That file survives a later failure of the same receive, such as a CRC mismatch (`receive.rs:208`) or a failed list check (`receive.rs:223`). The model leaves the staged map as it was. `Paths.Join` does not resolve `..`.
- Which bytes a failed receive consumed is not modelled: after a failure the model keeps the input as it was before the step.
- Rust's `usize` bounds appear only as preconditions of the round-trip lemmas: fewer than 2^64 files, and names shorter than 2^64 bytes. Any real argument list meets them.
- Receive.ReceiveFiles: `Vec::with_capacity(num_files)` (`receive.rs:164`) is not modelled. With no expected count, a declared count above `isize::MAX / 24` (about 3.8·10^17) makes the receiver panic with a capacity overflow, and a smaller but huge count can abort on allocation failure. The model instead starts reading frames and fails with end of input.
- The 512-byte buffer size does not change behaviour. Content reads go through an arbitrary chunking function instead.
- Varint.Read: the ten-byte and 2^64 limits and the errors for them are the model's definition. How the varint library the program uses treats an overlong or overflowing varint, or end of input inside one, is not part of this model.
- The sender reads each file twice: once to measure it, once to copy it. A file that changes between the two reads is not modelled; the model reads one content per file name.
- Plans.Staged: the map holds only the files of the latest successful receive and where the move steps put them. Files created by a frame that later failed are not in it. A later successful receive replaces the map, so files moved before it are no longer tracked.
- Plans.StagedLastWins: a staged path is identified by its bytes. `.` and `..` components, repeated `/` and a relative spelling against an absolute one are not resolved. The program truncates one file for `a` and then `./a`, so the second frame's contents win there; the model keeps `tmp/a` and `tmp/./a` as two entries.
- Plans.Rename: paths are identified by their bytes, as for `Plans.StagedLastWins`. A rename between two spellings of one file, such as `/srv/a` onto `/srv/./a`, is a no-op on the file system; the model moves the entry to the other key.
- Plans.MissingSourceFails: paths are identified by their bytes, so "no earlier rename fills it" compares spellings. A rename whose destination is another spelling of the missing staged path refills it in the program; the model still counts the path as missing.
- Plans.DuplicateNameFails: paths are identified by their bytes. A name received twice whose destination is another spelling of its staged path, such as `/srv/a` mapped to `/srv/./a`, is renamed onto itself twice and the program succeeds. The model's condition compares the spellings, so it still predicts a failure there.
- Plans.MoveAll: files that command steps create, delete or rename are not modelled; the map changes only through receive and move steps. A file already at a destination outside the map is replaced without being tracked.

=== FILE: bytes.dfy ===
/**
 Bytes, 32-bit words and text.

 A Rust `String` is a buffer of UTF-8 bytes; throughout this model every
 piece of text (file names, paths, commands, plan names) is represented by
 those bytes, as a `Text`.
 */
module Bytes {

  /** An unsigned 8-bit value, as Rust's `u8`. */
  type Byte = b: int | 0 <= b < 0x100

  /** An unsigned 32-bit value, as Rust's `u32`. */
  type U32 = x: int | 0 <= x < 0x1_0000_0000

  /** The UTF-8 bytes of a Rust `String` or `&str`. */
  type Text = seq<Byte>

  /** The byte `/`, the Unix path separator. */
  const Slash: Byte := 0x2F

  /** The byte ` `, on which the remote shell command is split. */
  const Space: Byte := 0x20

  /** The bytes of an ASCII literal. */
  function Ascii(s: string): (r: Text)
    requires forall i :: 0 <= i < |s| ==> s[i] as int < 0x80
    ensures |r| == |s|
    ensures forall i :: 0 <= i < |s| ==> r[i] == s[i] as int
    ensures forall i :: 0 <= i < |r| ==> r[i] < 0x80
  {
    if |s| == 0 then [] else [s[0] as int] + Ascii(s[1..])
  }

  /** The four bytes of `x`, most significant first (`byteorder::BigEndian`):
      the bytes of its high half, then those of its low half. */
  function BigEndian32(x: U32): (r: seq<Byte>)
    ensures |r| == 4
  {
    var high, low := x / 0x1_0000, x % 0x1_0000;
    [high / 0x100, high % 0x100, low / 0x100, low % 0x100]
  }

  /** The number whose big-endian bytes are `b`. */
  function FromBigEndian32(b: seq<Byte>): (x: U32)
    requires |b| == 4
    ensures x / 0x1_0000 == b[0] as int * 0x100 + b[1] as int
    ensures x % 0x1_0000 == b[2] as int * 0x100 + b[3] as int
  {
    var high, low := b[0] as int * 0x100 + b[1] as int, b[2] as int * 0x100 + b[3] as int;
    high * 0x1_0000 + low
  }

  /** Writing a word and reading it back gives the word. */
  lemma {:induction false} BigEndian32RoundTrip(x: U32)
    ensures FromBigEndian32(BigEndian32(x)) == x
  {
    var high, low := x / 0x1_0000, x % 0x1_0000;
    assert high == (high / 0x100) * 0x100 + high % 0x100;
    assert low == (low / 0x100) * 0x100 + low % 0x100;
    assert x == high * 0x1_0000 + low;
  }

  /** Every four bytes are the encoding of exactly one word. */
  lemma {:induction false} BigEndian32Onto(b: seq<Byte>)
    requires |b| == 4
    ensures BigEndian32(FromBigEndian32(b)) == b
  {
  }
}

=== FILE: failures.dfy ===
/**
 The failures a deployment can end with, and the `Result` type that carries
 them. The program reports every failure as a `failure::Error` built from a
 message; each distinct message (or I/O error) is one constructor here.
 */
module Failures {
  import opened Bytes

  datatype Error =
      /** The input ended inside a field (`read_exact` or a zero-length read). */
    | UnexpectedEnd
      /** The first four bytes are not the protocol magic. */
    | BadMagic
      /** The fifth byte is not the protocol version. */
    | BadVersion
      /** A varint the model's reader rejects: longer than ten bytes, or not
          fitting in 64 bits. */
    | BadVarint
      /** The declared file count differs from the one the plan expects. */
    | CountMismatch(declared: nat, expected: nat)
      /** The staging directory could not be created. */
    | StagingUnavailable
      /** A frame asked for a compression scheme other than none. */
    | UnsupportedCompression(code: Byte)
      /** A declared name length above the cap. */
    | NameTooLong(length: nat)
      /** Name bytes that are not UTF-8. */
    | InvalidName
      /** A declared content length above the cap. */
    | FileTooLarge(length: nat)
      /** The staged file for this name could not be created. */
    | CreateFailed(name: Text)
      /** The received content does not have the declared checksum. */
    | ChecksumMismatch(name: Text)
      /** The received names are not the plan's expected names. */
    | FileListMismatch
      /** A move step ran before any successful receive (no staging directory). */
    | MissingStaging
      /** A move step ran before any successful receive (no name list). */
    | MissingFileList
      /** Renaming a staged file to its destination failed. */
    | RenameFailed(name: Text)
      /** The command could not be started. */
    | SpawnFailed(command: Text)
      /** The command exited unsuccessfully and failure was not allowed. */
    | CommandFailed(command: Text)

  /** An optional value, as Rust's `Option`. */
  datatype Option<+T> = None | Some(value: T)

  /** A value, or the error that stopped its computation; usable with `:-`. */
  datatype Result<+T> = Ok(value: T) | Err(error: Error) {

    predicate IsFailure() {
      Err?
    }

    function PropagateFailure<U>(): Result<U>
      requires Err?
    {
      Err(error)
    }

    function Extract(): T
      requires Ok?
    {
      value
    }
  }
}

=== FILE: name_order.dfy ===
/**
 Sorting lists of names, as `Vec<String>::sort` does before the receiver
 compares the names it got with the names it expected.

 Rust orders `String`s byte by byte, a proper prefix before any extension of
 it. Sorting yields the unique ordered arrangement of a list's elements, so
 two lists sort to the same vector exactly when they hold the same names the
 same number of times.
 */
module NameOrder {
  import opened Bytes

  /** `a <= b` in the order of Rust's `Ord for str`. */
  predicate Le(a: Text, b: Text)
    decreases |a|
  {
    |a| == 0 || (|b| > 0 && (a[0] < b[0] || (a[0] == b[0] && Le(a[1..], b[1..]))))
  }

  lemma {:induction false} LeTotal(a: Text, b: Text)
    ensures Le(a, b) || Le(b, a)
    decreases |a|
  {
    if |a| > 0 && |b| > 0 && a[0] == b[0] {
      LeTotal(a[1..], b[1..]);
    }
  }

  lemma {:induction false} LeAntisymmetric(a: Text, b: Text)
    requires Le(a, b) && Le(b, a)
    ensures a == b
    decreases |a|
  {
    if |a| > 0 {
      LeAntisymmetric(a[1..], b[1..]);
      assert a == [a[0]] + a[1..] && b == [b[0]] + b[1..];
    }
  }

  lemma {:induction false} LeTransitive(a: Text, b: Text, c: Text)
    requires Le(a, b) && Le(b, c)
    ensures Le(a, c)
    decreases |a|
  {
    if |a| > 0 && a[0] == b[0] && b[0] == c[0] {
      LeTransitive(a[1..], b[1..], c[1..]);
    }
  }

  /** Every name is at most every later name. */
  predicate Sorted(s: seq<Text>) {
    forall i, j :: 0 <= i < j < |s| ==> Le(s[i], s[j])
  }

  /** `x` placed into the sorted list `s` before the first name it does not exceed. */
  function Insert(x: Text, s: seq<Text>): (r: seq<Text>)
    requires Sorted(s)
    ensures Sorted(r)
    ensures multiset(r) == multiset(s) + multiset{x}
  {
    if |s| == 0 then [x]
    else if Le(x, s[0]) then
      assert forall j :: 0 < j < |s| ==> Le(x, s[j]) by {
        forall j | 0 < j < |s| ensures Le(x, s[j]) {
          LeTransitive(x, s[0], s[j]);
        }
      }
      [x] + s
    else
      var tail := Insert(x, s[1..]);
      LeTotal(x, s[0]);
      assert s == [s[0]] + s[1..];
      assert forall j :: 0 <= j < |tail| ==> Le(s[0], tail[j]) by {
        forall j | 0 <= j < |tail| ensures Le(s[0], tail[j]) {
          assert tail[j] in multiset(tail);
          if tail[j] != x {
            assert tail[j] in multiset(s[1..]);
            var k :| 0 <= k < |s[1..]| && s[1..][k] == tail[j];
            assert s[k + 1] == tail[j];
          }
        }
      }
      [s[0]] + tail
  }

  /** The names of `s` in ascending order (`sort`). */
  function Sort(s: seq<Text>): (r: seq<Text>)
    ensures Sorted(r)
    ensures multiset(r) == multiset(s)
  {
    if |s| == 0 then []
    else
      assert s == [s[0]] + s[1..];
      Insert(s[0], Sort(s[1..]))
  }

  /** Two ordered arrangements of the same names are the same list. */
  lemma {:induction false} SortedUnique(a: seq<Text>, b: seq<Text>)
    requires Sorted(a) && Sorted(b)
    requires multiset(a) == multiset(b)
    ensures a == b
    decreases |a|
  {
    assert |a| == |multiset(a)| == |multiset(b)| == |b|;
    if |a| > 0 {
      SortedHeads(a, b);
      DropHead(a);
      DropHead(b);
      SortedUnique(a[1..], b[1..]);
      assert a == [a[0]] + a[1..] && b == [b[0]] + b[1..];
    }
  }

  /** Two ordered arrangements of the same names start with the same name. */
  lemma {:induction false} SortedHeads(a: seq<Text>, b: seq<Text>)
    requires Sorted(a) && Sorted(b) && |a| > 0
    requires multiset(a) == multiset(b)
    ensures |b| > 0 && a[0] == b[0]
  {
    assert a[0] in multiset(b);
    var k :| 0 <= k < |b| && b[k] == a[0];
    assert b[0] in multiset(a);
    var m :| 0 <= m < |a| && a[m] == b[0];
    if k > 0 && m > 0 {
      LeAntisymmetric(a[0], b[0]);
    }
  }

  /** The tail of a list holds its names less one occurrence of the head. */
  lemma {:induction false} DropHead(a: seq<Text>)
    requires |a| > 0
    ensures Sorted(a) ==> Sorted(a[1..])
    ensures multiset(a[1..]) == multiset(a) - multiset{a[0]}
  {
    assert a == [a[0]] + a[1..];
  }

  /** Comparing sorted copies is comparing multisets: the order of the
      names does not matter, how often each occurs does. */
  lemma {:induction false} SortEqualIffSameNames(a: seq<Text>, b: seq<Text>)
    ensures Sort(a) == Sort(b) <==> multiset(a) == multiset(b)
  {
    if multiset(a) == multiset(b) {
      SortedUnique(Sort(a), Sort(b));
    }
  }
}

=== FILE: paths.dfy ===
/**
 Unix paths as byte strings, and `Path::join` on them.

 Joining follows `PathBuf::push` on Unix: an absolute part replaces the
 base; otherwise the part is appended, with a `/` between the two unless
 the base is empty or already ends in one. No normalisation happens: `.`,
 `..` and repeated separators inside either part are kept as they are.
 */
module Paths {
  import opened Bytes

  /** A path that starts at the root. */
  predicate IsAbsolute(p: Text) {
    |p| > 0 && p[0] == Slash
  }

  /** A separator is needed between `base` and a relative part. */
  predicate NeedsSeparator(base: Text) {
    |base| > 0 && base[|base| - 1] != Slash
  }

  /** What goes between a base and a relative part. */
  function Separator(base: Text): seq<Byte> {
    if NeedsSeparator(base) then [Slash] else []
  }

  /** `Path::new(base).join(part)`. */
  function Join(base: Text, part: Text): Text {
    if IsAbsolute(part) then part else base + Separator(base) + part
  }

  /** A join with a relative part starts with the base, ends with the
      part, and has a single `/` between them unless the base is empty or
      already ends in one; an absolute part is kept alone. */
  lemma {:induction false} JoinKeepsParts(base: Text, part: Text)
    ensures IsAbsolute(part) ==> Join(base, part) == part
    ensures !IsAbsolute(part) ==>
      |Join(base, part)| == |base| + |part| + (if NeedsSeparator(base) then 1 else 0)
    ensures !IsAbsolute(part) ==>
      Join(base, part)[..|base|] == base && Join(base, part)[|Join(base, part)| - |part|..] == part
    ensures !IsAbsolute(part) && NeedsSeparator(base) ==> Join(base, part)[|base|] == Slash
  {
    if !IsAbsolute(part) {
      var r := Join(base, part);
      assert r == base + (Separator(base) + part);
      assert r == (base + Separator(base)) + part;
    }
  }

  /** Joining onto the result of a join is joining the two parts first,
      when both parts are relative (`a/b` then `c` is `a/(b/c)`). */
  lemma {:induction false} JoinAssociative(a: Text, b: Text, c: Text)
    requires !IsAbsolute(b) && !IsAbsolute(c) && |b| > 0
    ensures Join(Join(a, b), c) == Join(a, Join(b, c))
  {
    var ab := a + Separator(a) + b;
    var bc := b + Separator(b) + c;
    assert Join(a, b) == ab;
    assert Join(b, c) == bc;
    EndsAlike(a + Separator(a), b);
    assert !IsAbsolute(bc) by {
      StartsAlike(b, Separator(b) + c);
      assert bc == b + (Separator(b) + c);
    }
    assert Join(ab, c) == ab + Separator(b) + c;
    assert Join(a, bc) == a + Separator(a) + bc;
    Associate(a + Separator(a), b, Separator(b), c);
  }

  /** A path ending in a non-empty `y` ends like `y`. */
  lemma {:induction false} EndsAlike(x: Text, y: Text)
    requires |y| > 0
    ensures Separator(x + y) == Separator(y)
  {
    assert (x + y)[|x + y| - 1] == y[|y| - 1];
  }

  /** A path starting with a non-empty `x` starts like `x`. */
  lemma {:induction false} StartsAlike(x: Text, y: Text)
    requires |x| > 0
    ensures IsAbsolute(x + y) == IsAbsolute(x)
  {
    assert (x + y)[0] == x[0];
  }

  lemma {:induction false} Associate(w: Text, x: Text, y: Text, z: Text)
    ensures w + x + y + z == w + (x + y + z)
  {
  }
}

=== FILE: plan.dfy ===
/**
 Deploy plans (`deploy`, `Step::execute`, `move_files`, `command`): the
 steps of a plan run in order over one shared state, and the first step
 that fails ends the plan.

 What the operating system decides is an input, per step index: the
 directory `TempDir::new` creates, whether `File::create` of a staged file
 succeeds, whether `fs::rename` of a staged file succeeds, and how a
 command ends. Standard input is one stream shared by every receive step.
 */
module Plans {
  import opened Bytes
  import opened Failures
  import opened Stream
  import opened Wire
  import opened Paths
  import Receive

  /** A command step (`ConfigCommand`). */
  datatype ConfigCommand = ConfigCommand(command: Text, args: Option<seq<Text>>, allowFailure: bool)

  /** One step of a plan. */
  datatype Step = Command(cc: ConfigCommand) | ReceiveFiles | MoveFiles

  /** A deploy plan as configured. */
  datatype Plan = Plan(workingDirectory: Option<Text>, expectedFiles: Option<Receive.Expected>,
                       files: Option<map<Text, Text>>, steps: seq<Step>)

  /** The state the steps share: the staging directory and the received
      names of the last successful receive. */
  datatype PlanState = PlanState(tmp: Option<Text>, files: Option<seq<Text>>)

  /** How a command ended: it could not be started, or it exited. */
  datatype ExitStatus = CouldNotStart | Exited(success: bool)

  /** A started command: program, arguments, working directory and the
      value of `TRAVIS_DEPLOY_TEMPDIR`, if any. */
  datatype Invocation = Invocation(program: Text, args: seq<Text>, directory: Option<Text>, tempDir: Option<Text>)

  /** What a step did that outlives it. */
  datatype Effect =
    | Received(staging: Text, names: seq<Text>)
    | Moved(source: Text, destination: Text)
    | Ran(invocation: Invocation, success: bool)

  /** The operating system's answers, by step index. */
  datatype Env = Env(
    crc: Crc32,
    tempDir: nat -> Option<Text>,
    createOk: (nat, Text) -> bool,
    renameOk: (nat, Text, Text) -> bool,
    status: nat -> ExitStatus)

  /** A plan in progress: the shared state, the staged files not yet moved
      (by path), the unread input, the effects so far, the number of steps
      run, and the error that ended the plan, if any. */
  datatype Run = Run(state: PlanState, staged: map<Text, seq<Byte>>, input: seq<Byte>,
                     log: seq<Effect>, done: nat, failure: Option<Error>)

  /** `PlanState::new`: nothing received yet. */
  function Start(input: seq<Byte>): Run {
    Run(PlanState(None, None), map[], input, [], 0, None)
  }

  /** The staging directory after `files` were written into `tmp` in
      order: creating a file truncates it, so a later file of the same name
      replaces an earlier one. */
  function Staged(tmp: Text, files: seq<FileEntry>): (m: map<Text, seq<Byte>>)
    ensures StagedPaths(tmp, files, m)
    decreases |files|
  {
    if |files| == 0 then map[]
    else
      var last := files[|files| - 1];
      var earlier := Staged(tmp, files[..|files| - 1]);
      StagedPathsStep(tmp, files, earlier);
      earlier[Join(tmp, last.name) := last.content]
  }

  /** The paths of `m` are exactly the staged paths of `files`. */
  predicate StagedPaths(tmp: Text, files: seq<FileEntry>, m: map<Text, seq<Byte>>) {
    && (forall i :: 0 <= i < |files| ==> Join(tmp, files[i].name) in m)
    && (forall p :: p in m ==> exists i :: 0 <= i < |files| && Join(tmp, files[i].name) == p)
  }

  /** Writing the last file adds its staged path to those of the files
      before it. */
  lemma {:induction false} StagedPathsStep(tmp: Text, files: seq<FileEntry>, earlier: map<Text, seq<Byte>>)
    requires |files| > 0 && StagedPaths(tmp, files[..|files| - 1], earlier)
    ensures var last := files[|files| - 1];
      StagedPaths(tmp, files, earlier[Join(tmp, last.name) := last.content])
  {
    var init := files[..|files| - 1];
    var last := files[|files| - 1];
    var m := earlier[Join(tmp, last.name) := last.content];
    forall i | 0 <= i < |files|
      ensures Join(tmp, files[i].name) in m
    {
      if i < |files| - 1 {
        assert init[i] == files[i];
      }
    }
    forall p | p in m
      ensures exists i :: 0 <= i < |files| && Join(tmp, files[i].name) == p
    {
      if p == Join(tmp, last.name) {
        assert Join(tmp, files[|files| - 1].name) == p;
      } else {
        var i :| 0 <= i < |init| && Join(tmp, init[i].name) == p;
        assert init[i] == files[i];
      }
    }
  }

  /** Each staged path holds the content of the last file written to it. */
  lemma {:induction false} StagedLastWins(tmp: Text, files: seq<FileEntry>, i: nat)
    requires i < |files|
    requires forall j :: i < j < |files| ==> Join(tmp, files[j].name) != Join(tmp, files[i].name)
    ensures Staged(tmp, files)[Join(tmp, files[i].name)] == files[i].content
    decreases |files|
  {
    if i < |files| - 1 {
      var init := files[..|files| - 1];
      assert init[i] == files[i];
      assert forall j :: i < j < |init| ==> init[j] == files[j];
      StagedLastWins(tmp, init, i);
    }
  }

  /** Where `move_files` puts the received file `name`: its entry in the
      plan's rename map, or the name itself, joined onto the working
      directory when the plan has one. */
  function Destination(plan: Plan, name: Text): Text {
    var target := if plan.files.Some? && name in plan.files.value then plan.files.value[name] else name;
    if plan.workingDirectory.Some? then Join(plan.workingDirectory.value, target) else target
  }

  /** The destination rule spelled out case by case. */
  lemma {:induction false} DestinationRule(plan: Plan, name: Text)
    ensures plan.workingDirectory.None? && (plan.files.None? || name !in plan.files.value) ==>
      Destination(plan, name) == name
    ensures plan.workingDirectory.None? && plan.files.Some? && name in plan.files.value ==>
      Destination(plan, name) == plan.files.value[name]
    ensures plan.workingDirectory.Some? && (plan.files.None? || name !in plan.files.value) ==>
      (IsAbsolute(name) ==> Destination(plan, name) == name)
      && (!IsAbsolute(name) ==>
            Destination(plan, name)[..|plan.workingDirectory.value|] == plan.workingDirectory.value
            && Destination(plan, name)[|Destination(plan, name)| - |name|..] == name)
    ensures plan.workingDirectory.Some? && plan.files.Some? && name in plan.files.value ==>
      var target := plan.files.value[name];
      (IsAbsolute(target) ==> Destination(plan, name) == target)
      && (!IsAbsolute(target) ==>
            Destination(plan, name)[..|plan.workingDirectory.value|] == plan.workingDirectory.value
            && Destination(plan, name)[|Destination(plan, name)| - |target|..] == target)
  {
    if plan.workingDirectory.Some? {
      if plan.files.Some? && name in plan.files.value {
        JoinKeepsParts(plan.workingDirectory.value, plan.files.value[name]);
      } else {
        JoinKeepsParts(plan.workingDirectory.value, name);
      }
    }
  }

  /** An absolute name that the plan neither maps nor places under a
      working directory is moved onto its own staged path: `Path::join`
      with an absolute part is that part. */
  lemma {:induction false} AbsoluteNameStaysPut(plan: Plan, tmp: Text, name: Text)
    requires IsAbsolute(name) && plan.workingDirectory.None? && (plan.files.None? || name !in plan.files.value)
    ensures Destination(plan, name) == Join(tmp, name) == name
  {
    JoinKeepsParts(tmp, name);
  }

  /** The outcome of moving some of the received files. */
  datatype Moves = Moves(staged: map<Text, seq<Byte>>, log: seq<Effect>, failure: Option<Error>)

  /** The move of one received name: its staged file to its destination. */
  function MoveOf(plan: Plan, tmp: Text, name: Text): Effect {
    Moved(Join(tmp, name), Destination(plan, name))
  }

  /** `fs::rename` on the known files: the entry moves to the destination,
      replacing whatever was there; renaming a path onto itself changes
      nothing. */
  function Rename(files: map<Text, seq<Byte>>, source: Text, destination: Text): (m: map<Text, seq<Byte>>)
    requires source in files
    ensures destination in m && m[destination] == files[source]
    ensures source != destination ==> source !in m
    ensures source == destination ==> m == files
    ensures forall p {:trigger p in m} :: p != source && p != destination ==>
      (p in m <==> p in files) && (p in files ==> m[p] == files[p])
  {
    if source == destination then files else (files - {source})[destination := files[source]]
  }

  /** No move of `names[lo..hi]` renames from the path `p`. */
  predicate NoSourceIn(tmp: Text, names: seq<Text>, lo: nat, hi: nat, p: Text)
    requires lo <= hi <= |names|
  {
    forall m :: lo <= m < hi ==> Join(tmp, names[m]) != p
  }

  /** No move of `names[lo..hi]` renames onto the path `p`. */
  predicate NoDestinationIn(plan: Plan, names: seq<Text>, lo: nat, hi: nat, p: Text)
    requires lo <= hi <= |names|
  {
    forall m :: lo <= m < hi ==> Destination(plan, names[m]) != p
  }

  /** The moves of `names[lo..hi]` are those of `names[1..][lo - 1..hi - 1]`. */
  lemma {:induction false} Shift(plan: Plan, tmp: Text, names: seq<Text>, lo: nat, hi: nat, p: Text)
    requires 1 <= lo <= hi <= |names|
    ensures NoSourceIn(tmp, names, lo, hi, p) == NoSourceIn(tmp, names[1..], lo - 1, hi - 1, p)
    ensures NoDestinationIn(plan, names, lo, hi, p) == NoDestinationIn(plan, names[1..], lo - 1, hi - 1, p)
  {
    assert forall m :: lo - 1 <= m < hi - 1 ==> names[1..][m] == names[m + 1];
  }

  /** The moves of `names[1..]`, after the move of `names[0]`, are moves of `names`. */
  lemma {:induction false} LogCons(plan: Plan, tmp: Text, names: seq<Text>, log: seq<Effect>)
    requires |log| < |names|
    requires forall k :: 0 <= k < |log| ==> log[k] == MoveOf(plan, tmp, names[1..][k])
    ensures forall k :: 0 <= k < |log| + 1 ==> ([MoveOf(plan, tmp, names[0])] + log)[k] == MoveOf(plan, tmp, names[k])
    ensures |log| + 1 < |names| ==> names[1..][|log|] == names[|log| + 1]
  {
    assert forall k :: 0 < k <= |log| ==> names[1..][k - 1] == names[k];
  }

  /** The rename loop of `move_files`, in list order: each received file is
      renamed from its staged path to its destination. A rename fails when
      nothing is at its source or the file system refuses it, and the
      renames before it stay done. */
  function MoveAll(env: Env, i: nat, plan: Plan, tmp: Text, names: seq<Text>,
                   staged: map<Text, seq<Byte>>): (r: Moves)
    ensures |r.log| <= |names|
    ensures forall k :: 0 <= k < |r.log| ==> r.log[k] == MoveOf(plan, tmp, names[k])
    ensures r.failure.None? <==> |r.log| == |names|
    ensures r.failure.Some? ==> r.failure == Some(RenameFailed(names[|r.log|]))
    decreases |names|
  {
    if |names| == 0 then Moves(staged, [], None)
    else
      var source := Join(tmp, names[0]);
      if source !in staged || !env.renameOk(i, source, Destination(plan, names[0])) then
        Moves(staged, [], Some(RenameFailed(names[0])))
      else
        var more := MoveAll(env, i, plan, tmp, names[1..], Rename(staged, source, Destination(plan, names[0])));
        LogCons(plan, tmp, names, more.log);
        Moves(more.staged, [MoveOf(plan, tmp, names[0])] + more.log, more.failure)
  }

  /** A file that no completed rename moved away is still there, and one
      that no completed rename touched keeps its contents. */
  lemma {:induction false} MoveKeepsUntouched(env: Env, i: nat, plan: Plan, tmp: Text, names: seq<Text>,
                                              staged: map<Text, seq<Byte>>, p: Text)
    ensures var r := MoveAll(env, i, plan, tmp, names, staged);
      p in staged && NoSourceIn(tmp, names, 0, |r.log|, p) ==> p in r.staged
    ensures var r := MoveAll(env, i, plan, tmp, names, staged);
      p in staged && NoSourceIn(tmp, names, 0, |r.log|, p) && NoDestinationIn(plan, names, 0, |r.log|, p) ==>
        p in r.staged && r.staged[p] == staged[p]
    decreases |names|
  {
    if |names| > 0 && Join(tmp, names[0]) in staged
       && env.renameOk(i, Join(tmp, names[0]), Destination(plan, names[0])) {
      var source := Join(tmp, names[0]);
      var after := Rename(staged, source, Destination(plan, names[0]));
      MoveAllFirst(env, i, plan, tmp, names, staged);
      MoveKeepsUntouched(env, i, plan, tmp, names[1..], after, p);
      Shift(plan, tmp, names, 1, |MoveAll(env, i, plan, tmp, names[1..], after).log| + 1, p);
    }
  }

  /** Nothing appears except at the destination of a completed rename. */
  lemma {:induction false} MoveAddsOnlyDestinations(env: Env, i: nat, plan: Plan, tmp: Text, names: seq<Text>,
                                                    staged: map<Text, seq<Byte>>, p: Text)
    ensures var r := MoveAll(env, i, plan, tmp, names, staged);
      p in r.staged && NoDestinationIn(plan, names, 0, |r.log|, p) ==> p in staged
    decreases |names|
  {
    if |names| > 0 && Join(tmp, names[0]) in staged
       && env.renameOk(i, Join(tmp, names[0]), Destination(plan, names[0])) {
      var source := Join(tmp, names[0]);
      var after := Rename(staged, source, Destination(plan, names[0]));
      MoveAllFirst(env, i, plan, tmp, names, staged);
      MoveAddsOnlyDestinations(env, i, plan, tmp, names[1..], after, p);
      Shift(plan, tmp, names, 1, |MoveAll(env, i, plan, tmp, names[1..], after).log| + 1, p);
    }
  }

  /** The loop after a first rename that succeeds: the rest of the loop on
      the files after that rename. */
  lemma {:induction false} MoveAllFirst(env: Env, i: nat, plan: Plan, tmp: Text, names: seq<Text>, staged: map<Text, seq<Byte>>)
    requires |names| > 0 && Join(tmp, names[0]) in staged
    requires env.renameOk(i, Join(tmp, names[0]), Destination(plan, names[0]))
    ensures var more := MoveAll(env, i, plan, tmp, names[1..], Rename(staged, Join(tmp, names[0]), Destination(plan, names[0])));
      && MoveAll(env, i, plan, tmp, names, staged).staged == more.staged
      && |MoveAll(env, i, plan, tmp, names, staged).log| == |more.log| + 1
      && MoveAll(env, i, plan, tmp, names, staged).failure == more.failure
  {
  }

  /** The loop stops for a cause: the renames before the stopping point
      all succeed, and it fails exactly when a name is left there whose
      staged file is missing, once those renames are done, or whose rename
      is refused. */
  predicate StopsForCause(env: Env, i: nat, plan: Plan, tmp: Text, names: seq<Text>,
                          staged: map<Text, seq<Byte>>)
  {
    var r := MoveAll(env, i, plan, tmp, names, staged);
    var n := |r.log|;
    var mid := MoveAll(env, i, plan, tmp, names[..n], staged);
    && mid.failure.None?
    && (r.failure.Some? <==>
          n < |names| && (Join(tmp, names[n]) !in mid.staged
                          || !env.renameOk(i, Join(tmp, names[n]), Destination(plan, names[n]))))
  }

  /** The loop fails only for a missing staged file or a refused rename, at
      the first name where either happens after the renames before it. */
  lemma {:induction false} MoveAllFailure(env: Env, i: nat, plan: Plan, tmp: Text, names: seq<Text>,
                                          staged: map<Text, seq<Byte>>)
    ensures StopsForCause(env, i, plan, tmp, names, staged)
    decreases |names|
  {
    if |names| > 0 && Join(tmp, names[0]) in staged
       && env.renameOk(i, Join(tmp, names[0]), Destination(plan, names[0])) {
      MoveAllFailure(env, i, plan, tmp, names[1..], Rename(staged, Join(tmp, names[0]), Destination(plan, names[0])));
      FailureLater(env, i, plan, tmp, names, staged);
    } else {
      FailureLater(env, i, plan, tmp, names, staged);
    }
  }

  /** The step of `MoveAllFailure`: when the first rename succeeds, the
      rest of the loop stops for a cause, and so does the whole loop. */
  lemma {:induction false} FailureLater(env: Env, i: nat, plan: Plan, tmp: Text, names: seq<Text>,
                                        staged: map<Text, seq<Byte>>)
    requires |names| > 0 && Join(tmp, names[0]) in staged
             && env.renameOk(i, Join(tmp, names[0]), Destination(plan, names[0])) ==>
      StopsForCause(env, i, plan, tmp, names[1..], Rename(staged, Join(tmp, names[0]), Destination(plan, names[0])))
    ensures StopsForCause(env, i, plan, tmp, names, staged)
  {
    if |names| > 0 && Join(tmp, names[0]) in staged
       && env.renameOk(i, Join(tmp, names[0]), Destination(plan, names[0])) {
      var after := Rename(staged, Join(tmp, names[0]), Destination(plan, names[0]));
      var more := MoveAll(env, i, plan, tmp, names[1..], after);
      MoveAllFirst(env, i, plan, tmp, names, staged);
      var n := |more.log| + 1;
      var prefix := names[..n];
      assert prefix[0] == names[0];
      assert prefix[1..] == names[1..][..n - 1];
      MoveAllFirst(env, i, plan, tmp, prefix, staged);
      if n < |names| {
        assert names[n] == names[1..][n - 1];
      }
    } else {
      assert names[..0] == [];
    }
  }

  /** The first staged file is gone after the loop, unless a completed
      rename put a file back at its path. */
  lemma {:induction false} MoveEmptiesFirst(env: Env, i: nat, plan: Plan, tmp: Text, names: seq<Text>,
                                            staged: map<Text, seq<Byte>>)
    requires |names| > 0 && Join(tmp, names[0]) in staged
    requires env.renameOk(i, Join(tmp, names[0]), Destination(plan, names[0]))
    ensures var r := MoveAll(env, i, plan, tmp, names, staged);
      NoDestinationIn(plan, names, 0, |r.log|, Join(tmp, names[0])) ==> Join(tmp, names[0]) !in r.staged
  {
    var source, destination := Join(tmp, names[0]), Destination(plan, names[0]);
    var after := Rename(staged, source, destination);
    var n := |MoveAll(env, i, plan, tmp, names[1..], after).log| + 1;
    MoveAllFirst(env, i, plan, tmp, names, staged);
    if NoDestinationIn(plan, names, 0, n, source) {
      assert destination != source;
      assert source !in after;
      Shift(plan, tmp, names, 1, n, source);
      assert NoDestinationIn(plan, names[1..], 0, n - 1, source);
      MoveAddsOnlyDestinations(env, i, plan, tmp, names[1..], after, source);
    }
  }

  /** The staged file of rename `k` is gone after the loop, if that rename
      completed and neither it nor a later one put a file back at its path. */
  predicate EmptiedAt(env: Env, i: nat, plan: Plan, tmp: Text, names: seq<Text>,
                      staged: map<Text, seq<Byte>>, k: nat)
  {
    var r := MoveAll(env, i, plan, tmp, names, staged);
    k < |r.log| && NoDestinationIn(plan, names, k, |r.log|, Join(tmp, names[k])) ==> Join(tmp, names[k]) !in r.staged
  }

  /** The staged file of a completed rename is gone, unless that rename or
      a later one put a file back at its path. */
  lemma {:induction false} MoveEmptiesSources(env: Env, i: nat, plan: Plan, tmp: Text, names: seq<Text>,
                                              staged: map<Text, seq<Byte>>, k: nat)
    ensures EmptiedAt(env, i, plan, tmp, names, staged, k)
    decreases |names|
  {
    if 0 < k < |names| && Join(tmp, names[0]) in staged
       && env.renameOk(i, Join(tmp, names[0]), Destination(plan, names[0])) {
      MoveEmptiesSources(env, i, plan, tmp, names[1..],
        Rename(staged, Join(tmp, names[0]), Destination(plan, names[0])), k - 1);
      EmptiesLater(env, i, plan, tmp, names, staged, k);
    } else {
      EmptiesLater(env, i, plan, tmp, names, staged, k);
    }
  }

  /** The step of `MoveEmptiesSources`: when the first rename succeeds, what
      holds of the rest of the loop at `k - 1` holds of the loop at `k`. */
  lemma {:induction false} EmptiesLater(env: Env, i: nat, plan: Plan, tmp: Text, names: seq<Text>,
                                        staged: map<Text, seq<Byte>>, k: nat)
    requires 0 < k < |names| && Join(tmp, names[0]) in staged
             && env.renameOk(i, Join(tmp, names[0]), Destination(plan, names[0])) ==>
      EmptiedAt(env, i, plan, tmp, names[1..], Rename(staged, Join(tmp, names[0]), Destination(plan, names[0])), k - 1)
    ensures EmptiedAt(env, i, plan, tmp, names, staged, k)
  {
    if |names| > 0 && Join(tmp, names[0]) in staged
       && env.renameOk(i, Join(tmp, names[0]), Destination(plan, names[0])) {
      var more := MoveAll(env, i, plan, tmp, names[1..], Rename(staged, Join(tmp, names[0]), Destination(plan, names[0])));
      MoveAllFirst(env, i, plan, tmp, names, staged);
      if k == 0 {
        MoveEmptiesFirst(env, i, plan, tmp, names, staged);
      } else if k <= |more.log| {
        assert names[1..][k - 1] == names[k];
        Shift(plan, tmp, names, k, |more.log| + 1, Join(tmp, names[k]));
      }
    }
  }

  /** The first destination holds a file after the loop, unless a later
      rename moved it away again. */
  lemma {:induction false} MoveFillsFirst(env: Env, i: nat, plan: Plan, tmp: Text, names: seq<Text>,
                                          staged: map<Text, seq<Byte>>)
    requires |names| > 0 && Join(tmp, names[0]) in staged
    requires env.renameOk(i, Join(tmp, names[0]), Destination(plan, names[0]))
    ensures var r := MoveAll(env, i, plan, tmp, names, staged);
      NoSourceIn(tmp, names, 1, |r.log|, Destination(plan, names[0])) ==> Destination(plan, names[0]) in r.staged
  {
    var source, destination := Join(tmp, names[0]), Destination(plan, names[0]);
    var after := Rename(staged, source, destination);
    var n := |MoveAll(env, i, plan, tmp, names[1..], after).log| + 1;
    MoveAllFirst(env, i, plan, tmp, names, staged);
    assert destination in after;
    MoveKeepsUntouched(env, i, plan, tmp, names[1..], after, destination);
    Shift(plan, tmp, names, 1, n, destination);
  }

  /** The destination of rename `k` holds a file after the loop, if that
      rename completed and no later one renamed from it. */
  predicate FilledAt(env: Env, i: nat, plan: Plan, tmp: Text, names: seq<Text>,
                     staged: map<Text, seq<Byte>>, k: nat)
  {
    var r := MoveAll(env, i, plan, tmp, names, staged);
    k < |r.log| && NoSourceIn(tmp, names, k + 1, |r.log|, Destination(plan, names[k])) ==>
      Destination(plan, names[k]) in r.staged
  }

  /** The destination of a completed rename holds a file, unless a later
      rename moved it away again. */
  lemma {:induction false} MoveFillsDestinations(env: Env, i: nat, plan: Plan, tmp: Text, names: seq<Text>,
                                                 staged: map<Text, seq<Byte>>, k: nat)
    ensures FilledAt(env, i, plan, tmp, names, staged, k)
    decreases |names|
  {
    if 0 < k < |names| && Join(tmp, names[0]) in staged
       && env.renameOk(i, Join(tmp, names[0]), Destination(plan, names[0])) {
      MoveFillsDestinations(env, i, plan, tmp, names[1..],
        Rename(staged, Join(tmp, names[0]), Destination(plan, names[0])), k - 1);
      FillsLater(env, i, plan, tmp, names, staged, k);
    } else {
      FillsLater(env, i, plan, tmp, names, staged, k);
    }
  }

  /** The step of `MoveFillsDestinations`, as `EmptiesLater` is that of
      `MoveEmptiesSources`. */
  lemma {:induction false} FillsLater(env: Env, i: nat, plan: Plan, tmp: Text, names: seq<Text>,
                                        staged: map<Text, seq<Byte>>, k: nat)
    requires 0 < k < |names| && Join(tmp, names[0]) in staged
             && env.renameOk(i, Join(tmp, names[0]), Destination(plan, names[0])) ==>
      FilledAt(env, i, plan, tmp, names[1..], Rename(staged, Join(tmp, names[0]), Destination(plan, names[0])), k - 1)
    ensures FilledAt(env, i, plan, tmp, names, staged, k)
  {
    if |names| > 0 && Join(tmp, names[0]) in staged
       && env.renameOk(i, Join(tmp, names[0]), Destination(plan, names[0])) {
      var more := MoveAll(env, i, plan, tmp, names[1..], Rename(staged, Join(tmp, names[0]), Destination(plan, names[0])));
      MoveAllFirst(env, i, plan, tmp, names, staged);
      if k == 0 {
        MoveFillsFirst(env, i, plan, tmp, names, staged);
      } else if k <= |more.log| {
        assert names[1..][k - 1] == names[k];
        Shift(plan, tmp, names, k + 1, |more.log| + 1, Destination(plan, names[k]));
      }
    }
  }

  /** What the rename loop does to the files: a path that no completed
      rename renamed from is still there; a path that no completed rename
      renamed onto was there before; a path neither touched keeps its
      contents; a renamed file's staged path is empty unless a rename from
      then on filled it again; a destination is filled unless a later
      rename emptied it. */
  lemma {:induction false} MoveAllPaths(env: Env, i: nat, plan: Plan, tmp: Text, names: seq<Text>, staged: map<Text, seq<Byte>>)
    ensures var r := MoveAll(env, i, plan, tmp, names, staged);
      forall p :: p in staged && NoSourceIn(tmp, names, 0, |r.log|, p) ==> p in r.staged
    ensures var r := MoveAll(env, i, plan, tmp, names, staged);
      forall p :: p in r.staged && NoDestinationIn(plan, names, 0, |r.log|, p) ==> p in staged
    ensures var r := MoveAll(env, i, plan, tmp, names, staged);
      forall p :: p in staged && NoSourceIn(tmp, names, 0, |r.log|, p) && NoDestinationIn(plan, names, 0, |r.log|, p) ==>
        p in r.staged && r.staged[p] == staged[p]
    ensures var r := MoveAll(env, i, plan, tmp, names, staged);
      forall k :: 0 <= k < |r.log| && NoDestinationIn(plan, names, k, |r.log|, Join(tmp, names[k])) ==>
        Join(tmp, names[k]) !in r.staged
    ensures var r := MoveAll(env, i, plan, tmp, names, staged);
      forall k :: 0 <= k < |r.log| && NoSourceIn(tmp, names, k + 1, |r.log|, Destination(plan, names[k])) ==>
        Destination(plan, names[k]) in r.staged
  {
    var r := MoveAll(env, i, plan, tmp, names, staged);
    forall p
      ensures p in staged && NoSourceIn(tmp, names, 0, |r.log|, p) ==> p in r.staged
      ensures p in r.staged && NoDestinationIn(plan, names, 0, |r.log|, p) ==> p in staged
      ensures p in staged && NoSourceIn(tmp, names, 0, |r.log|, p) && NoDestinationIn(plan, names, 0, |r.log|, p) ==>
        p in r.staged && r.staged[p] == staged[p]
    {
      MoveKeepsUntouched(env, i, plan, tmp, names, staged, p);
      MoveAddsOnlyDestinations(env, i, plan, tmp, names, staged, p);
    }
    forall k | 0 <= k < |r.log|
      ensures NoDestinationIn(plan, names, k, |r.log|, Join(tmp, names[k])) ==> Join(tmp, names[k]) !in r.staged
      ensures NoSourceIn(tmp, names, k + 1, |r.log|, Destination(plan, names[k])) ==> Destination(plan, names[k]) in r.staged
    {
      MoveEmptiesSources(env, i, plan, tmp, names, staged, k);
      MoveFillsDestinations(env, i, plan, tmp, names, staged, k);
    }
  }

  /** A name whose staged file is gone, and which no earlier move renames
      onto, makes the move fail at that name or before it. */
  lemma {:induction false} MissingSourceFails(env: Env, i: nat, plan: Plan, tmp: Text, names: seq<Text>,
                                              staged: map<Text, seq<Byte>>, k: nat)
    requires k < |names| && Join(tmp, names[k]) !in staged
    requires NoDestinationIn(plan, names, 0, k, Join(tmp, names[k]))
    ensures MoveAll(env, i, plan, tmp, names, staged).failure.Some?
    ensures |MoveAll(env, i, plan, tmp, names, staged).log| <= k
    decreases |names|
  {
    var source := Join(tmp, names[0]);
    if k > 0 && source in staged && env.renameOk(i, source, Destination(plan, names[0])) {
      assert names[1..][k - 1] == names[k];
      Shift(plan, tmp, names, 1, k, Join(tmp, names[k]));
      MissingSourceFails(env, i, plan, tmp, names[1..], Rename(staged, source, Destination(plan, names[0])), k - 1);
      MoveAllFirst(env, i, plan, tmp, names, staged);
    }
  }

  /** A name received twice cannot be moved twice when its staged path is
      not a destination of the moves from its first occurrence up to its
      second: the staged file is gone after the first rename, so the move
      fails by the second occurrence. */
  lemma {:induction false} DuplicateNameFails(env: Env, i: nat, plan: Plan, tmp: Text, names: seq<Text>,
                                              staged: map<Text, seq<Byte>>, j: nat, k: nat)
    requires j < k < |names| && names[j] == names[k]
    requires NoDestinationIn(plan, names, j, k, Join(tmp, names[k]))
    ensures MoveAll(env, i, plan, tmp, names, staged).failure.Some?
    ensures |MoveAll(env, i, plan, tmp, names, staged).log| <= k
    decreases |names|
  {
    var source := Join(tmp, names[0]);
    if source in staged && env.renameOk(i, source, Destination(plan, names[0])) {
      if j == 0 {
        RepeatOfFirstFails(env, i, plan, tmp, names, staged, k);
      } else {
        var after := Rename(staged, source, Destination(plan, names[0]));
        RepeatInRest(plan, tmp, names, j, k);
        DuplicateNameFails(env, i, plan, tmp, names[1..], after, j - 1, k - 1);
        MoveAllFirst(env, i, plan, tmp, names, staged);
      }
    }
  }

  /** A repeat after the first name is a repeat in the rest of the list,
      with the same moves in between. */
  lemma {:induction false} RepeatInRest(plan: Plan, tmp: Text, names: seq<Text>, j: nat, k: nat)
    requires 0 < j < k < |names| && names[j] == names[k]
    requires NoDestinationIn(plan, names, j, k, Join(tmp, names[k]))
    ensures names[1..][j - 1] == names[1..][k - 1]
    ensures NoDestinationIn(plan, names[1..], j - 1, k - 1, Join(tmp, names[1..][k - 1]))
  {
    assert names[1..][k - 1] == names[k] && names[1..][j - 1] == names[j];
    Shift(plan, tmp, names, j, k, Join(tmp, names[k]));
  }

  /** The case of `DuplicateNameFails` where the first name comes back: its
      first rename empties its staged path for good. */
  lemma {:induction false} RepeatOfFirstFails(env: Env, i: nat, plan: Plan, tmp: Text, names: seq<Text>,
                                              staged: map<Text, seq<Byte>>, k: nat)
    requires 0 < k < |names| && names[0] == names[k]
    requires NoDestinationIn(plan, names, 0, k, Join(tmp, names[k]))
    requires Join(tmp, names[0]) in staged && env.renameOk(i, Join(tmp, names[0]), Destination(plan, names[0]))
    ensures MoveAll(env, i, plan, tmp, names, staged).failure.Some?
    ensures |MoveAll(env, i, plan, tmp, names, staged).log| <= k
  {
    var source := Join(tmp, names[0]);
    var after := Rename(staged, source, Destination(plan, names[0]));
    assert names[1..][k - 1] == names[k];
    assert Destination(plan, names[0]) != source;
    assert source !in after;
    assert NoDestinationIn(plan, names, 1, k, source);
    Shift(plan, tmp, names, 1, k, source);
    MissingSourceFails(env, i, plan, tmp, names[1..], after, k - 1);
    MoveAllFirst(env, i, plan, tmp, names, staged);
  }

  /** A file whose destination is its own staged path stays where it is, so
      a name received twice is moved twice without error. */
  lemma {:induction false} InPlaceMoveRepeats(env: Env, i: nat, plan: Plan, tmp: Text, name: Text, staged: map<Text, seq<Byte>>)
    requires Destination(plan, name) == Join(tmp, name) && Join(tmp, name) in staged
    requires env.renameOk(i, Join(tmp, name), Join(tmp, name))
    ensures MoveAll(env, i, plan, tmp, [name, name], staged)
      == Moves(staged, [MoveOf(plan, tmp, name), MoveOf(plan, tmp, name)], None)
  {
    var source := Join(tmp, name);
    assert Rename(staged, source, source) == staged;
    assert [name, name][1..] == [name];
    assert [name][1..] == [];
    assert MoveAll(env, i, plan, tmp, [name], staged) == Moves(staged, [MoveOf(plan, tmp, name)], None);
  }

  /** Two files mapped to one destination both move: `fs::rename` replaces
      the first file with the second, which is what the destination holds. */
  lemma {:induction false} SharedDestinationSucceeds(env: Env, i: nat, plan: Plan, tmp: Text, a: Text, b: Text,
                                                     staged: map<Text, seq<Byte>>)
    requires Join(tmp, a) in staged && Join(tmp, b) in staged && Join(tmp, a) != Join(tmp, b)
    requires Destination(plan, a) == Destination(plan, b) && Destination(plan, a) != Join(tmp, b)
    requires env.renameOk(i, Join(tmp, a), Destination(plan, a)) && env.renameOk(i, Join(tmp, b), Destination(plan, b))
    ensures var r := MoveAll(env, i, plan, tmp, [a, b], staged);
      && r.failure.None?
      && Destination(plan, a) in r.staged && r.staged[Destination(plan, a)] == staged[Join(tmp, b)]
  {
    var mid := Rename(staged, Join(tmp, a), Destination(plan, a));
    assert Join(tmp, b) in mid && mid[Join(tmp, b)] == staged[Join(tmp, b)];
    assert [a, b][1..] == [b];
    assert [b][1..] == [];
    assert MoveAll(env, i, plan, tmp, [b], mid).staged == Rename(mid, Join(tmp, b), Destination(plan, b));
  }

  /** Moving `names` out of `tmp` at step `i` runs into nothing: every
      rename is allowed, no destination is a staged path, and the staged
      paths and the destinations are each distinct. */
  predicate CleanMoves(env: Env, i: nat, plan: Plan, tmp: Text, names: seq<Text>) {
    && (forall k :: 0 <= k < |names| ==> env.renameOk(i, Join(tmp, names[k]), Destination(plan, names[k])))
    && (forall k, m :: 0 <= k < |names| && 0 <= m < |names| ==> Destination(plan, names[k]) != Join(tmp, names[m]))
    && (forall k, m :: 0 <= k < m < |names| ==>
          Join(tmp, names[k]) != Join(tmp, names[m]) && Destination(plan, names[k]) != Destination(plan, names[m]))
  }

  /** Clean moves of staged files all succeed. */
  lemma {:induction false} CleanMoveSucceeds(env: Env, i: nat, plan: Plan, tmp: Text, names: seq<Text>,
                                             staged: map<Text, seq<Byte>>)
    requires forall k :: 0 <= k < |names| ==> Join(tmp, names[k]) in staged
    requires CleanMoves(env, i, plan, tmp, names)
    ensures MoveAll(env, i, plan, tmp, names, staged).failure.None?
    decreases |names|
  {
    if |names| > 0 {
      CleanMovesRest(env, i, plan, tmp, names);
      CleanRestStaged(env, i, plan, tmp, names, staged);
      CleanMoveSucceeds(env, i, plan, tmp, names[1..], Rename(staged, Join(tmp, names[0]), Destination(plan, names[0])));
    }
  }

  /** After the first clean move, the other staged files are still there
      with their contents. */
  lemma {:induction false} CleanRestStaged(env: Env, i: nat, plan: Plan, tmp: Text, names: seq<Text>,
                                           staged: map<Text, seq<Byte>>)
    requires |names| > 0 && forall k :: 0 <= k < |names| ==> Join(tmp, names[k]) in staged
    requires CleanMoves(env, i, plan, tmp, names)
    ensures var after := Rename(staged, Join(tmp, names[0]), Destination(plan, names[0]));
      forall m :: 0 <= m < |names| - 1 ==>
        Join(tmp, names[1..][m]) in after && after[Join(tmp, names[1..][m])] == staged[Join(tmp, names[m + 1])]
  {
    var source, destination := Join(tmp, names[0]), Destination(plan, names[0]);
    var after := Rename(staged, source, destination);
    forall m | 0 <= m < |names| - 1
      ensures Join(tmp, names[1..][m]) in after && after[Join(tmp, names[1..][m])] == staged[Join(tmp, names[m + 1])]
    {
      assert names[1..][m] == names[m + 1];
      assert Join(tmp, names[m + 1]) != source && Join(tmp, names[m + 1]) != destination;
    }
  }

  /** After clean moves of staged files, the first destination holds the
      contents of the first staged file. */
  lemma {:induction false} CleanDeliversFirst(env: Env, i: nat, plan: Plan, tmp: Text, names: seq<Text>,
                                              staged: map<Text, seq<Byte>>)
    requires |names| > 0 && Join(tmp, names[0]) in staged
    requires CleanMoves(env, i, plan, tmp, names)
    ensures Destination(plan, names[0]) in MoveAll(env, i, plan, tmp, names, staged).staged
    ensures MoveAll(env, i, plan, tmp, names, staged).staged[Destination(plan, names[0])] == staged[Join(tmp, names[0])]
  {
    var source, destination := Join(tmp, names[0]), Destination(plan, names[0]);
    var after := Rename(staged, source, destination);
    var more := MoveAll(env, i, plan, tmp, names[1..], after);
    assert env.renameOk(i, source, destination);
    MoveAllFirst(env, i, plan, tmp, names, staged);
    CleanFirstUntouched(env, i, plan, tmp, names, |more.log|);
    MoveKeepsUntouched(env, i, plan, tmp, names[1..], after, destination);
    assert destination in more.staged && more.staged[destination] == after[destination];
  }

  /** After clean moves of staged files, each destination holds the
      contents staged for it. */
  lemma {:induction false} CleanMoveDelivers(env: Env, i: nat, plan: Plan, tmp: Text, names: seq<Text>,
                                             staged: map<Text, seq<Byte>>, k: nat)
    requires forall m :: 0 <= m < |names| ==> Join(tmp, names[m]) in staged
    requires CleanMoves(env, i, plan, tmp, names)
    requires k < |names|
    ensures Destination(plan, names[k]) in MoveAll(env, i, plan, tmp, names, staged).staged
    ensures MoveAll(env, i, plan, tmp, names, staged).staged[Destination(plan, names[k])] == staged[Join(tmp, names[k])]
    decreases |names|
  {
    if k == 0 {
      CleanDeliversFirst(env, i, plan, tmp, names, staged);
    } else {
      var after := Rename(staged, Join(tmp, names[0]), Destination(plan, names[0]));
      var rest := names[1..];
      var more := MoveAll(env, i, plan, tmp, rest, after);
      assert env.renameOk(i, Join(tmp, names[0]), Destination(plan, names[0]));
      MoveAllFirst(env, i, plan, tmp, names, staged);
      CleanMovesRest(env, i, plan, tmp, names);
      CleanRestStaged(env, i, plan, tmp, names, staged);
      assert rest[k - 1] == names[k];
      CleanMoveDelivers(env, i, plan, tmp, rest, after, k - 1);
      assert more.staged[Destination(plan, names[k])] == after[Join(tmp, names[k])];
    }
  }

  /** Clean moves of staged files all succeed, and each destination holds
      the contents staged for it. */
  lemma {:induction false} CleanMove(env: Env, i: nat, plan: Plan, tmp: Text, names: seq<Text>, staged: map<Text, seq<Byte>>)
    requires forall k :: 0 <= k < |names| ==> Join(tmp, names[k]) in staged
    requires CleanMoves(env, i, plan, tmp, names)
    ensures MoveAll(env, i, plan, tmp, names, staged).failure.None?
    ensures forall k :: 0 <= k < |names| ==>
      Destination(plan, names[k]) in MoveAll(env, i, plan, tmp, names, staged).staged
      && MoveAll(env, i, plan, tmp, names, staged).staged[Destination(plan, names[k])] == staged[Join(tmp, names[k])]
  {
    CleanMoveSucceeds(env, i, plan, tmp, names, staged);
    forall k | 0 <= k < |names|
      ensures Destination(plan, names[k]) in MoveAll(env, i, plan, tmp, names, staged).staged
      ensures MoveAll(env, i, plan, tmp, names, staged).staged[Destination(plan, names[k])] == staged[Join(tmp, names[k])]
    {
      CleanMoveDelivers(env, i, plan, tmp, names, staged, k);
    }
  }

  /** Under clean moves, no later move renames from or onto the first
      destination. */
  lemma {:induction false} CleanFirstUntouched(env: Env, i: nat, plan: Plan, tmp: Text, names: seq<Text>, n: nat)
    requires |names| > 0 && n < |names| && CleanMoves(env, i, plan, tmp, names)
    ensures NoSourceIn(tmp, names[1..], 0, n, Destination(plan, names[0]))
    ensures NoDestinationIn(plan, names[1..], 0, n, Destination(plan, names[0]))
  {
    forall m | 0 <= m < n
      ensures Join(tmp, names[1..][m]) != Destination(plan, names[0])
      ensures Destination(plan, names[1..][m]) != Destination(plan, names[0])
    {
      assert names[1..][m] == names[m + 1];
    }
  }

  /** Clean moves stay clean without their first name. */
  lemma {:induction false} CleanMovesRest(env: Env, i: nat, plan: Plan, tmp: Text, names: seq<Text>)
    requires |names| > 0 && CleanMoves(env, i, plan, tmp, names)
    ensures CleanMoves(env, i, plan, tmp, names[1..])
  {
    assert forall k :: 0 <= k < |names| - 1 ==> names[1..][k] == names[k + 1];
  }

  /** The `allow_failure` rule: the error of a command step, if any. */
  function CommandOutcome(cc: ConfigCommand, status: ExitStatus): (e: Option<Error>)
    ensures e.Some? <==> status.CouldNotStart? || (!status.success && !cc.allowFailure)
  {
    match status
    case CouldNotStart => Some(SpawnFailed(cc.command))
    case Exited(ok) => if !ok && !cc.allowFailure then Some(CommandFailed(cc.command)) else None
  }

  /** How a command step starts its program: the configured arguments (none
      if absent), the plan's working directory, and the staging directory
      of the last successful receive. */
  function InvocationOf(plan: Plan, state: PlanState, cc: ConfigCommand): Invocation {
    Invocation(cc.command, if cc.args.Some? then cc.args.value else [], plan.workingDirectory, state.tmp)
  }

  /** `File::create` for the receive at step `i`. */
  function CreateAt(env: Env, i: nat): Text -> bool {
    name => env.createOk(i, name)
  }

  /** `Step::execute` of step `i` on a plan that has not failed. */
  function Exec(env: Env, plan: Plan, i: nat, step: Step, run: Run): (r: Run)
    requires run.failure.None?
    ensures r.done == run.done
    ensures run.log <= r.log
    ensures !step.ReceiveFiles? ==> r.state == run.state && r.input == run.input
    ensures r.failure.Some? ==> r.state == run.state
    ensures step.ReceiveFiles? ==>
      var received := Receive.ReceiveFiles(env.crc, env.tempDir(i), CreateAt(env, i), plan.expectedFiles, run.input);
      && (r.failure.None? <==> received.Ok?)
      && (received.Ok? ==>
            && r.state == PlanState(Some(received.value.value.staging), Some(Names(received.value.value.files)))
            && r.staged == Staged(received.value.value.staging, received.value.value.files)
            && r.input == received.value.rest)
      && (received.Err? ==> r.failure == Some(received.error) && r.staged == run.staged && r.input == run.input)
    ensures step.MoveFiles? && run.state.tmp.None? ==> r.failure == Some(MissingStaging)
    ensures step.MoveFiles? && run.state.tmp.Some? && run.state.files.None? ==> r.failure == Some(MissingFileList)
    ensures step.MoveFiles? && run.state.tmp.Some? && run.state.files.Some? ==>
      var moves := MoveAll(env, i, plan, run.state.tmp.value, run.state.files.value, run.staged);
      r.staged == moves.staged && r.log == run.log + moves.log && r.failure == moves.failure
    ensures step.Command? ==> r.failure == CommandOutcome(step.cc, env.status(i))
  {
    match step
    case ReceiveFiles =>
      var received := Receive.ReceiveFiles(env.crc, env.tempDir(i), CreateAt(env, i), plan.expectedFiles, run.input);
      if received.Err? then run.(failure := Some(received.error))
      else
        var p := received.value;
        var names := Names(p.value.files);
        run.(state := PlanState(Some(p.value.staging), Some(names)),
             staged := Staged(p.value.staging, p.value.files),
             input := p.rest,
             log := run.log + [Received(p.value.staging, names)])
    case MoveFiles =>
      if run.state.tmp.None? then run.(failure := Some(MissingStaging))
      else if run.state.files.None? then run.(failure := Some(MissingFileList))
      else
        var moves := MoveAll(env, i, plan, run.state.tmp.value, run.state.files.value, run.staged);
        run.(staged := moves.staged, log := run.log + moves.log, failure := moves.failure)
    case Command(cc) =>
      var status := env.status(i);
      if status.CouldNotStart? then run.(failure := CommandOutcome(cc, status))
      else run.(log := run.log + [Ran(InvocationOf(plan, run.state, cc), status.success)],
                failure := CommandOutcome(cc, status))
  }

  /** `step` keeps the effects already logged and may add more. */
  ghost predicate Grows(step: Run -> Run) {
    forall x: Run :: x.log <= step(x).log
  }

  /** Steps applied to `run` one after another up to (not including) step
      `upto`, stopping at the first failure. */
  function Fold(step: Run -> Run, run: Run, upto: nat): (r: Run)
    requires run.done <= upto
    ensures run.done <= r.done <= upto
    ensures r.failure.None? ==> r.done == upto
    ensures run.failure.Some? ==> r == run
    decreases upto - run.done
  {
    if run.failure.Some? || run.done == upto then run
    else Fold(step, step(run).(done := run.done + 1), upto)
  }

  /** A fold of steps that each keep the log keeps the log. */
  lemma {:induction false} FoldGrows(step: Run -> Run, run: Run, upto: nat)
    requires run.done <= upto && Grows(step)
    ensures run.log <= Fold(step, run, upto).log
    decreases upto - run.done
  {
    if run.failure.None? && run.done < upto {
      var next := step(run).(done := run.done + 1);
      FoldGrows(step, next, upto);
    }
  }

  /** Folding up to `k` and then on up to `n` is folding up to `n`. */
  lemma {:induction false} FoldSplit(step: Run -> Run, run: Run, k: nat, n: nat)
    requires run.done <= k <= n
    ensures Fold(step, Fold(step, run, k), n) == Fold(step, run, n)
    decreases k - run.done
  {
    if run.failure.None? && run.done < k {
      FoldSplit(step, step(run).(done := run.done + 1), k, n);
    }
  }

  /** A fold that ends with an error stopped at the step that failed: the
      result is that step applied to what the steps before it left. */
  lemma {:induction false} FoldStops(step: Run -> Run, run: Run, upto: nat)
    requires run.done <= upto && run.failure.None?
    requires Fold(step, run, upto).failure.Some?
    ensures run.done < Fold(step, run, upto).done
    ensures Fold(step, run, Fold(step, run, upto).done - 1).failure.None?
    ensures var last := Fold(step, run, upto).done - 1;
      Fold(step, run, upto) == step(Fold(step, run, last)).(done := last + 1)
    decreases upto - run.done
  {
    var next := step(run).(done := run.done + 1);
    if next.failure.Some? {
      assert Fold(step, run, run.done) == run;
    } else {
      FoldStops(step, next, upto);
      var last := Fold(step, next, upto).done - 1;
      assert Fold(step, run, last) == Fold(step, next, last);
    }
  }

  /** Step `run.done` of `plan`, on a run that has not failed and has
      steps left; any other run is left as it is. */
  function Next(env: Env, plan: Plan, run: Run): Run {
    if run.failure.None? && run.done < |plan.steps| then Exec(env, plan, run.done, plan.steps[run.done], run) else run
  }

  /** `Next` as a function of the run alone. */
  function Advance(env: Env, plan: Plan): Run -> Run {
    x => Next(env, plan, x)
  }

  lemma {:induction false} AdvanceGrows(env: Env, plan: Plan)
    ensures Grows(Advance(env, plan))
  {
  }

  /** The steps of `plan` from `run.done` up to (not including) `upto`. */
  function RunSteps(env: Env, plan: Plan, run: Run, upto: nat): (r: Run)
    requires run.done <= upto <= |plan.steps|
    ensures run.done <= r.done <= upto
    ensures r.failure.None? ==> r.done == upto
    ensures run.log <= r.log
  {
    AdvanceGrows(env, plan);
    FoldGrows(Advance(env, plan), run, upto);
    Fold(Advance(env, plan), run, upto)
  }

  /** Running the steps up to `k` and then on up to `n` is running them up
      to `n`: the steps form a fold over one shared state. */
  lemma {:induction false} RunStepsSplit(env: Env, plan: Plan, run: Run, k: nat, n: nat)
    requires run.done <= k <= n <= |plan.steps|
    ensures RunSteps(env, plan, RunSteps(env, plan, run, k), n) == RunSteps(env, plan, run, n)
  {
    FoldSplit(Advance(env, plan), run, k, n);
  }

  /** A plan that ends with an error ran exactly the steps up to the one
      that failed: the error is that step's own, from the state the earlier
      steps left, and no step after it ran. */
  lemma {:induction false} StopsAtFirstFailure(env: Env, plan: Plan, run: Run, upto: nat)
    requires run.done <= upto <= |plan.steps| && run.failure.None?
    requires RunSteps(env, plan, run, upto).failure.Some?
    ensures run.done < RunSteps(env, plan, run, upto).done
    ensures RunSteps(env, plan, run, RunSteps(env, plan, run, upto).done - 1).failure.None?
    ensures var last := RunSteps(env, plan, run, upto).done - 1;
      RunSteps(env, plan, run, upto)
        == Exec(env, plan, last, plan.steps[last], RunSteps(env, plan, run, last)).(done := last + 1)
  {
    StopsInFold(env, plan, run, upto);
  }

  /** `StopsAtFirstFailure` one level down: the failing run is the step
      `Next` applied to the run the earlier steps left. */
  lemma {:induction false} StopsInFold(env: Env, plan: Plan, run: Run, upto: nat)
    requires run.done <= upto <= |plan.steps| && run.failure.None?
    requires RunSteps(env, plan, run, upto).failure.Some?
    ensures run.done < RunSteps(env, plan, run, upto).done
    ensures RunSteps(env, plan, run, RunSteps(env, plan, run, upto).done - 1).failure.None?
    ensures RunSteps(env, plan, run, RunSteps(env, plan, run, upto).done - 1).done == RunSteps(env, plan, run, upto).done - 1
    ensures RunSteps(env, plan, run, upto)
      == Next(env, plan, RunSteps(env, plan, run, RunSteps(env, plan, run, upto).done - 1)).(done := RunSteps(env, plan, run, upto).done)
  {
    var step := Advance(env, plan);
    FoldStops(step, run, upto);
    RunStepsIsFold(env, plan, run, upto);
    var last := RunSteps(env, plan, run, upto).done - 1;
    RunStepsIsFold(env, plan, run, last);
    FoldStopsAt(step, run, upto, last);
    AdvanceIsNext(env, plan, Fold(step, run, last));
  }

  /** `FoldStops` for a given index `last` of the failing step. */
  lemma {:induction false} FoldStopsAt(step: Run -> Run, run: Run, upto: nat, last: nat)
    requires run.done <= upto && run.failure.None?
    requires Fold(step, run, upto).failure.Some? && last + 1 == Fold(step, run, upto).done
    ensures Fold(step, run, last).failure.None?
    ensures Fold(step, run, last).done == last
    ensures Fold(step, run, upto) == step(Fold(step, run, last)).(done := last + 1)
  {
    FoldStops(step, run, upto);
  }

  lemma {:induction false} RunStepsIsFold(env: Env, plan: Plan, run: Run, n: nat)
    requires run.done <= n <= |plan.steps|
    ensures RunSteps(env, plan, run, n) == Fold(Advance(env, plan), run, n)
  {
  }

  lemma {:induction false} AdvanceIsNext(env: Env, plan: Plan, x: Run)
    ensures Advance(env, plan)(x) == Next(env, plan, x)
  {
  }

  /** `deploy`: without a plan name, or with one the configuration does not
      have, nothing runs and the deploy succeeds; otherwise the plan's
      steps run in order from a fresh state. */
  function Deploy(env: Env, plans: map<Text, Plan>, params: seq<Text>, input: seq<Byte>): (r: Run)
    ensures (|params| == 0 || params[0] !in plans) ==> r.failure.None? && r.log == [] && r.done == 0
    ensures |params| > 0 && params[0] in plans && r.failure.None? ==> r.done == |plans[params[0]].steps|
    ensures |params| > 0 && params[0] in plans && r.failure.Some? ==> r.done >= 1
  {
    if |params| == 0 || params[0] !in plans then Start(input)
    else RunSteps(env, plans[params[0]], Start(input), |plans[params[0]].steps|)
  }

  /** A receive step and then a move step: when the received names have
      distinct staged paths and move cleanly, the move succeeds and every
      received file ends up at its destination with the contents it was
      sent with. */
  lemma {:induction false} ReceiveThenMove(env: Env, plan: Plan, i: nat, j: nat, run: Run)
    requires run.failure.None?
    requires var received := Receive.ReceiveFiles(env.crc, env.tempDir(i), CreateAt(env, i), plan.expectedFiles, run.input);
      received.Ok? && CleanMoves(env, j, plan, received.value.value.staging, Names(received.value.value.files))
    ensures var received := Receive.ReceiveFiles(env.crc, env.tempDir(i), CreateAt(env, i), plan.expectedFiles, run.input);
      var files := received.value.value.files;
      var after := Exec(env, plan, j, MoveFiles, Exec(env, plan, i, ReceiveFiles, run));
      && after.failure.None?
      && forall k :: 0 <= k < |files| ==>
           Destination(plan, files[k].name) in after.staged && after.staged[Destination(plan, files[k].name)] == files[k].content
  {
    var received := Receive.ReceiveFiles(env.crc, env.tempDir(i), CreateAt(env, i), plan.expectedFiles, run.input);
    var tmp, files := received.value.value.staging, received.value.value.files;
    var names := Names(files);
    var mid := Exec(env, plan, i, ReceiveFiles, run);
    MoveAfterReceive(env, plan, j, mid, tmp, files);
  }

  /** A move step on the state a receive of `files` into `tmp` left. */
  lemma {:induction false} MoveAfterReceive(env: Env, plan: Plan, j: nat, mid: Run, tmp: Text, files: seq<FileEntry>)
    requires mid.failure.None? && mid.state == PlanState(Some(tmp), Some(Names(files))) && mid.staged == Staged(tmp, files)
    requires CleanMoves(env, j, plan, tmp, Names(files))
    ensures var after := Exec(env, plan, j, MoveFiles, mid);
      && after.failure.None?
      && forall k :: 0 <= k < |files| ==>
           Destination(plan, files[k].name) in after.staged && after.staged[Destination(plan, files[k].name)] == files[k].content
  {
    var names := Names(files);
    StagedDistinct(tmp, files);
    CleanMove(env, j, plan, tmp, names, mid.staged);
    var moves := MoveAll(env, j, plan, tmp, names, mid.staged);
    assert Exec(env, plan, j, MoveFiles, mid).staged == moves.staged;
  }

  /** When the received names have distinct staged paths, each staged path
      holds the contents of its file. */
  lemma {:induction false} StagedDistinct(tmp: Text, files: seq<FileEntry>)
    requires forall k, m :: 0 <= k < m < |files| ==> Join(tmp, Names(files)[k]) != Join(tmp, Names(files)[m])
    ensures forall k :: 0 <= k < |files| ==>
      Join(tmp, Names(files)[k]) in Staged(tmp, files) && Staged(tmp, files)[Join(tmp, Names(files)[k])] == files[k].content
  {
    forall k | 0 <= k < |files|
      ensures Join(tmp, Names(files)[k]) in Staged(tmp, files)
      ensures Staged(tmp, files)[Join(tmp, Names(files)[k])] == files[k].content
    {
      forall m | k < m < |files|
        ensures Join(tmp, files[m].name) != Join(tmp, files[k].name)
      {
        assert Join(tmp, Names(files)[k]) != Join(tmp, Names(files)[m]);
      }
      StagedLastWins(tmp, files, k);
    }
  }

  /** A move step before any successful receive fails without moving
      anything. */
  lemma {:induction false} MoveBeforeReceiveFails(env: Env, plan: Plan, i: nat, input: seq<Byte>)
    ensures Exec(env, plan, i, MoveFiles, Start(input)) == Start(input).(failure := Some(MissingStaging))
  {
  }

  /** A receive that fails leaves the shared state as it was: a later move
      step still sees the previous receive, or none. */
  lemma {:induction false} FailedReceiveKeepsState(env: Env, plan: Plan, i: nat, run: Run)
    requires run.failure.None?
    requires Receive.ReceiveFiles(env.crc, env.tempDir(i), CreateAt(env, i), plan.expectedFiles, run.input).Err?
    ensures Exec(env, plan, i, ReceiveFiles, run).state == run.state
    ensures Exec(env, plan, i, ReceiveFiles, run).staged == run.staged
    ensures Exec(env, plan, i, ReceiveFiles, run).log == run.log
  {
  }
}

=== FILE: receive.dfy ===
/**
 The receiver's decoder (`receive_files`): reads the wire format from
 standard input, checks every field as soon as it is read, and stages the
 files it accepts.

 The outcomes of the file system are inputs: `staging` is the directory
 `TempDir::new` created (`None` if it could not), and `createOk(name)` says
 whether `File::create` succeeded for the staged file of that name.
 */
module Receive {
  import opened Bytes
  import opened Failures
  import opened Stream
  import opened Wire
  import Varint
  import Utf8
  import NameOrder

  /** A plan's expectation about the files it receives (`ExpectedFiles`). */
  datatype Expected = Amount(count: nat) | List(names: seq<Text>)

  /** A successful receive: the staging directory and the files accepted,
      in stream order. */
  datatype Received = Received(staging: Text, files: seq<FileEntry>)

  /** The file count a plan demands: its amount, or the length of its list. */
  function DemandedCount(expected: Option<Expected>): Option<nat> {
    match expected
    case None => None
    case Some(Amount(a)) => Some(a)
    case Some(List(l)) => Some(|l|)
  }

  /** The declared count is the demanded one, if any is demanded. */
  predicate CountAgrees(expected: Option<Expected>, count: nat) {
    DemandedCount(expected).Some? ==> count == DemandedCount(expected).value
  }

  /** With an expected list, the received names sorted equal the expected
      names sorted. */
  predicate ListAgrees(expected: Option<Expected>, names: seq<Text>) {
    expected.Some? && expected.value.List? ==>
      NameOrder.Sort(names) == NameOrder.Sort(expected.value.names)
  }

  /** The expected-list check compares names with their multiplicities and
      ignores their order: it is multiset equality. */
  lemma {:induction false} ListCheckIsMultiset(expected: Option<Expected>, names: seq<Text>)
    ensures expected.Some? && expected.value.List? ==>
      (ListAgrees(expected, names) <==> multiset(names) == multiset(expected.value.names))
  {
    if expected.Some? && expected.value.List? {
      NameOrder.SortEqualIffSameNames(names, expected.value.names);
    }
  }

  /** The limits every accepted file respects. */
  predicate Acceptable(f: FileEntry) {
    |f.name| <= MaxNameLength && Utf8.Valid(f.name) && |f.content| <= MaxFileLength
  }

  /** The fields of a frame before its content: name, declared checksum
      and declared content length. */
  datatype FrameHead = FrameHead(name: Text, checksum: U32, length: nat)

  /** The name field of a frame, each check made before anything after it
      is read: the compression code, the name length against 512, then the
      name bytes as UTF-8. */
  function ReadName(s: seq<Byte>): (r: Result<Parsed<Text>>)
    ensures r.Ok? ==> |r.value.value| <= MaxNameLength && Utf8.Valid(r.value.value)
  {
    var code :- ReadByte(s);
    if code.value != NoCompression then Err(UnsupportedCompression(code.value))
    else
      var nameLength :- Varint.Read(code.rest);
      if nameLength.value > MaxNameLength then Err(NameTooLong(nameLength.value))
      else
        var name :- ReadExact(nameLength.rest, nameLength.value);
        if !Utf8.Valid(name.value) then Err(InvalidName) else Ok(name)
  }

  /** An accepted name field is the code for no compression, the name's
      length in some readable varint spelling, and the name. */
  lemma {:induction false} NameShape(s: seq<Byte>)
    requires ReadName(s).Ok?
    ensures exists e :: (Varint.Encodes(e, |ReadName(s).value.value|)
                         && s == [NoCompression] + e + ReadName(s).value.value + ReadName(s).value.rest)
  {
    var code := ReadByte(s).value;
    assert s == [NoCompression] + code.rest by {
      ReadExactShape(s, 1);
    }
    var nameLength := Varint.Read(code.rest).value;
    Varint.ReadShape(code.rest);
    var name := ReadExact(nameLength.rest, nameLength.value).value;
    assert ReadName(s).value == name;
    ReadExactShape(nameLength.rest, nameLength.value);
    var e :| Varint.Encodes(e, nameLength.value) && code.rest == e + nameLength.rest;
    Regroup([NoCompression], e, name.value, name.rest);
  }

  /** The fields before the content: the name, then the declared checksum,
      then the content length, checked against 100 MiB before any content
      byte is read. */
  function ReadFrameHead(s: seq<Byte>): (r: Result<Parsed<FrameHead>>)
    ensures r.Ok? ==> |r.value.value.name| <= MaxNameLength && Utf8.Valid(r.value.value.name)
    ensures r.Ok? ==> r.value.value.length <= MaxFileLength
  {
    var name :- ReadName(s);
    var declared :- ReadU32(name.rest);
    var length :- Varint.Read(declared.rest);
    if length.value > MaxFileLength then Err(FileTooLarge(length.value))
    else Ok(Parsed(FrameHead(name.value, declared.value, length.value), length.rest))
  }

  /** `s` starts with the fields of `head`, its lengths in some readable
      varint spelling, and `rest` follows them. */
  ghost predicate IsHeadOf(s: seq<Byte>, head: FrameHead, rest: seq<Byte>) {
    exists e1, e2 ::
      && Varint.Encodes(e1, |head.name|) && Varint.Encodes(e2, head.length)
      && s == [NoCompression] + e1 + head.name + BigEndian32(head.checksum) + e2 + rest
  }

  /** An accepted head is laid out as `IsHeadOf` says. */
  lemma {:induction false} HeadShape(s: seq<Byte>)
    requires ReadFrameHead(s).Ok?
    ensures IsHeadOf(s, ReadFrameHead(s).value.value, ReadFrameHead(s).value.rest)
  {
    var name := ReadName(s).value;
    NameShape(s);
    var e1 :| Varint.Encodes(e1, |name.value|) && s == [NoCompression] + e1 + name.value + name.rest;
    var declared := ReadU32(name.rest).value;
    ReadU32Shape(name.rest);
    var length := Varint.Read(declared.rest).value;
    Varint.ReadShape(declared.rest);
    var e2 :| Varint.Encodes(e2, length.value) && declared.rest == e2 + length.rest;
    RegroupHead([NoCompression], e1, name.value, BigEndian32(declared.value), e2, length.rest);
  }

  /** One frame (an iteration of the file loop): its head, then the staged
      file is created, then exactly the declared number of content bytes is
      read and its checksum compared with the declared one. */
  function ReadFrame(crc: Crc32, createOk: Text -> bool, s: seq<Byte>): (r: Result<Parsed<FileEntry>>)
    ensures r.Ok? ==> Accepted(createOk, r.value.value)
  {
    var head :- ReadFrameHead(s);
    if !createOk(head.value.name) then Err(CreateFailed(head.value.name))
    else
      var content :- ReadExact(head.rest, head.value.length);
      if crc(content.value) != head.value.checksum then Err(ChecksumMismatch(head.value.name))
      else Ok(Parsed(FileEntry(head.value.name, content.value), content.rest))
  }

  /** A file within the limits whose staged file could be created. */
  predicate Accepted(createOk: Text -> bool, f: FileEntry) {
    Acceptable(f) && createOk(f.name)
  }

  /** `s` is the frame of `file`, with the checksum of its content and its
      lengths in some readable varint spelling, followed by `rest`: the
      content is consumed exactly, and nothing after it. */
  ghost predicate IsFrameOf(crc: Crc32, s: seq<Byte>, file: FileEntry, rest: seq<Byte>) {
    exists e1, e2 ::
      && Varint.Encodes(e1, |file.name|) && Varint.Encodes(e2, |file.content|)
      && s == [NoCompression] + e1 + file.name + BigEndian32(crc(file.content)) + e2 + file.content + rest
  }

  /** An accepted frame is laid out as `IsFrameOf` says: in particular its
      declared checksum is the checksum of its content. */
  lemma {:induction false} FrameShape(crc: Crc32, createOk: Text -> bool, s: seq<Byte>)
    requires ReadFrame(crc, createOk, s).Ok?
    ensures IsFrameOf(crc, s, ReadFrame(crc, createOk, s).value.value, ReadFrame(crc, createOk, s).value.rest)
  {
    var head := ReadFrameHead(s).value;
    HeadShape(s);
    var h := head.value;
    var e1, e2 :| Varint.Encodes(e1, |h.name|) && Varint.Encodes(e2, h.length)
      && s == [NoCompression] + e1 + h.name + BigEndian32(h.checksum) + e2 + head.rest;
    var content := ReadExact(head.rest, h.length).value;
    assert ReadFrame(crc, createOk, s) == Ok(Parsed(FileEntry(h.name, content.value), content.rest));
    ReadExactShape(head.rest, h.length);
    RegroupFrame([NoCompression], e1, h.name, BigEndian32(h.checksum), e2, content.value, content.rest);
  }

  /** What follows an accepted frame is a suffix of the input. */
  lemma {:induction false} FrameSuffix(crc: Crc32, createOk: Text -> bool, s: seq<Byte>)
    requires ReadFrame(crc, createOk, s).Ok?
    ensures Suffix(ReadFrame(crc, createOk, s).value.rest, s)
  {
    FrameShape(crc, createOk, s);
    var frame := ReadFrame(crc, createOk, s).value;
    var f := frame.value;
    var e1, e2 :| Varint.Encodes(e1, |f.name|) && Varint.Encodes(e2, |f.content|)
      && s == [NoCompression] + e1 + f.name + BigEndian32(crc(f.content)) + e2 + f.content + frame.rest;
    SuffixAfter([NoCompression] + e1 + f.name + BigEndian32(crc(f.content)) + e2 + f.content, frame.rest);
  }

  /** `ReadFrame` as a reader of one value. */
  function FrameReader(crc: Crc32, createOk: Text -> bool): seq<Byte> -> Result<Parsed<FileEntry>> {
    s => ReadFrame(crc, createOk, s)
  }

  /** Every file was accepted. */
  predicate AllAccepted(createOk: Text -> bool, files: seq<FileEntry>) {
    forall i :: 0 <= i < |files| ==> Accepted(createOk, files[i])
  }

  /** `count` frames in a row (the loop `for _ in 0..num_files`); the first
      frame that fails ends the receive. */
  function ReadFrames(crc: Crc32, createOk: Text -> bool, s: seq<Byte>, count: nat): (r: Result<Parsed<seq<FileEntry>>>)
    ensures r.Ok? ==> |r.value.value| == count && AllAccepted(createOk, r.value.value)
  {
    var r := Repeat(FrameReader(crc, createOk), s, count);
    if r.Ok? then
      RepeatAll(FrameReader(crc, createOk), f => Accepted(createOk, f), s, count);
      r
    else r
  }

  /** What follows accepted frames is a suffix of the input. */
  lemma {:induction false} FramesSuffix(crc: Crc32, createOk: Text -> bool, s: seq<Byte>, count: nat)
    requires ReadFrames(crc, createOk, s, count).Ok?
    ensures Suffix(ReadFrames(crc, createOk, s, count).value.rest, s)
  {
    forall t | FrameReader(crc, createOk)(t).Ok?
      ensures Suffix(FrameReader(crc, createOk)(t).value.rest, t)
    {
      FrameSuffix(crc, createOk, t);
    }
    RepeatSuffix(FrameReader(crc, createOk), s, count);
  }

  /** `s` is the frames of `files`, in order, followed by `rest`. */
  ghost predicate AreFramesOf(crc: Crc32, s: seq<Byte>, files: seq<FileEntry>, rest: seq<Byte>)
    decreases |files|
  {
    if |files| == 0 then s == rest
    else exists mid :: IsFrameOf(crc, s, files[0], mid) && AreFramesOf(crc, mid, files[1..], rest)
  }

  /** Accepted frames are laid out one after another, each as `IsFrameOf`
      says, and the unread input follows the last of them. */
  lemma {:induction false} FramesShape(crc: Crc32, createOk: Text -> bool, s: seq<Byte>, count: nat)
    requires Repeat(FrameReader(crc, createOk), s, count).Ok?
    ensures var r := Repeat(FrameReader(crc, createOk), s, count).value;
      AreFramesOf(crc, s, r.value, r.rest)
    decreases count
  {
    var r := Repeat(FrameReader(crc, createOk), s, count).value;
    if count == 0 {
      assert r == Parsed([], s);
    } else {
      var first := ReadFrame(crc, createOk, s).value;
      assert FrameReader(crc, createOk)(s) == ReadFrame(crc, createOk, s);
      FrameShape(crc, createOk, s);
      FramesShape(crc, createOk, first.rest, count - 1);
      var more := Repeat(FrameReader(crc, createOk), first.rest, count - 1).value;
      assert r == Parsed([first.value] + more.value, more.rest);
      assert r.value[0] == first.value && r.value[1..] == more.value;
      assert IsFrameOf(crc, s, r.value[0], first.rest);
    }
  }

  /** The stream header and the declared file count: the magic, then the
      version, then the count, each checked in that order. */
  function ReadPreamble(input: seq<Byte>): (r: Result<Parsed<nat>>)
    ensures r.Ok? ==> r.value.value < Varint.Limit
  {
    var header :- ReadExact(input, |Header|);
    if header.value[..4] != Magic then Err(BadMagic)
    else if header.value[4] != Version then Err(BadVersion)
    else Varint.Read(header.rest)
  }

  /** An accepted preamble is the header and the count in some readable
      varint spelling; what follows it is a suffix of the input. */
  lemma {:induction false} PreambleShape(input: seq<Byte>)
    requires ReadPreamble(input).Ok?
    ensures exists e :: (Varint.Encodes(e, ReadPreamble(input).value.value)
                         && input == Header + e + ReadPreamble(input).value.rest)
    ensures |input| >= |Header| && input[..|Header|] == Header
    ensures Suffix(ReadPreamble(input).value.rest, input)
  {
    var header := ReadExact(input, |Header|).value;
    assert header.value == header.value[..4] + [header.value[4]];
    var count := ReadPreamble(input).value;
    Varint.ReadShape(header.rest);
    var e :| Varint.Encodes(e, count.value) && header.rest == e + count.rest;
    assert input == Header + e + count.rest;
    SuffixAfter(Header + e, count.rest);
  }

  /** `receive_files`: the preamble, the count check, the staging directory,
      the frames, then the expected-list check. Header and count are checked
      before the staging directory exists. */
  function ReceiveFiles(crc: Crc32, staging: Option<Text>, createOk: Text -> bool,
                        expected: Option<Expected>, input: seq<Byte>): (r: Result<Parsed<Received>>)
    ensures r.Ok? ==> staging == Some(r.value.value.staging)
    ensures r.Ok? ==> CountAgrees(expected, |r.value.value.files|)
    ensures r.Ok? && expected.Some? && expected.value.List? ==>
      multiset(Names(r.value.value.files)) == multiset(expected.value.names)
    ensures r.Ok? ==> AllAccepted(createOk, r.value.value.files)
  {
    var count :- ReadPreamble(input);
    if !CountAgrees(expected, count.value) then Err(CountMismatch(count.value, DemandedCount(expected).value))
    else if staging.None? then Err(StagingUnavailable)
    else
      var files :- ReadFrames(crc, createOk, count.rest, count.value);
      if !ListAgrees(expected, Names(files.value)) then Err(FileListMismatch)
      else
        ListCheckIsMultiset(expected, Names(files.value));
        Ok(Parsed(Received(staging.value, files.value), files.rest))
  }

  /** An accepted stream starts with the header, and what follows it is a
      suffix of the input. */
  lemma {:induction false} ReceiveShape(crc: Crc32, staging: Option<Text>, createOk: Text -> bool,
                     expected: Option<Expected>, input: seq<Byte>)
    requires ReceiveFiles(crc, staging, createOk, expected, input).Ok?
    ensures |input| >= |Header| && input[..|Header|] == Header
    ensures Suffix(ReceiveFiles(crc, staging, createOk, expected, input).value.rest, input)
    ensures var r := ReceiveFiles(crc, staging, createOk, expected, input).value;
      exists e, body :: && Varint.Encodes(e, |r.value.files|) && input == Header + e + body
                        && AreFramesOf(crc, body, r.value.files, r.rest)
  {
    var count := ReadPreamble(input).value;
    PreambleShape(input);
    FramesSuffix(crc, createOk, count.rest, count.value);
    SuffixTransitive(ReceiveFiles(crc, staging, createOk, expected, input).value.rest, count.rest, input);
    var e :| Varint.Encodes(e, count.value) && input == Header + e + count.rest;
    var frames := ReadFrames(crc, createOk, count.rest, count.value).value;
    assert frames == Repeat(FrameReader(crc, createOk), count.rest, count.value).value;
    FramesShape(crc, createOk, count.rest, count.value);
    var r := ReceiveFiles(crc, staging, createOk, expected, input).value;
    assert r.value.files == frames.value && r.rest == frames.rest;
    assert AreFramesOf(crc, count.rest, r.value.files, r.rest);
  }

  /** The content loop: reads of at most 512 bytes until `length` bytes
      have arrived, each chunk fed to the checksum as it is written out. A
      read that would need more than the remaining input fails; `chunk(i)`
      decides how many bytes the `i`-th full-buffer `read` returns. The bytes
      consumed are exactly those `ReadExact` takes. */
  method ReadContent(crc: Crc32, input: seq<Byte>, length: nat, chunk: nat -> nat)
    returns (r: Result<Parsed<seq<Byte>>>, sum: U32)
    ensures r == ReadExact(input, length)
    ensures r.Ok? ==> sum == crc(r.value.value)
  {
    var total := 0;
    var digest := Digest([]);
    var written: seq<Byte> := [];
    var s := input;
    var i := 0;
    while total < length
      invariant total <= length && total <= |input|
      invariant s == input[total..]
      invariant written == input[..total] && digest.written == written
      decreases length - total
    {
      var left := length - total;
      var read: nat;
      if left < 512 {
        if |s| < left {
          return Err(UnexpectedEnd), 0;
        }
        read := left;
      } else {
        read := if |s| == 0 then 0 else 1 + chunk(i) % (if |s| < 512 then |s| else 512);
      }
      if read == 0 {
        return Err(UnexpectedEnd), 0;
      }
      digest := digest.Write(s[..read]);
      written := written + s[..read];
      assert input[..total + read] == input[..total] + s[..read];
      total := total + read;
      s := s[read..];
      i := i + 1;
    }
    return Ok(Parsed(written, s)), digest.Sum32(crc);
  }
}

=== FILE: receive_checks.dfy ===
/**
 What the receiver rejects, and how much input it has read when it does.

 Each lemma holds for every `tail`: the verdict does not depend on anything
 after the field that caused it, so nothing after that field was read.
 */
module ReceiveChecks {
  import opened Bytes
  import opened Failures
  import opened Stream
  import opened Wire
  import opened Receive
  import Varint
  import Utf8

  /** The bytes of a frame that come before its content. */
  function FramePrefix(nameLength: seq<Byte>, name: Text, checksum: U32, contentLength: seq<Byte>): seq<Byte> {
    [NoCompression] + nameLength + name + BigEndian32(checksum) + contentLength
  }

  /** Fewer than five bytes: the header read fails. */
  lemma {:induction false} ShortHeaderRejected(crc: Crc32, staging: Option<Text>, createOk: Text -> bool,
                            expected: Option<Expected>, input: seq<Byte>)
    requires |input| < |Header|
    ensures ReceiveFiles(crc, staging, createOk, expected, input) == Err(UnexpectedEnd)
  {
  }

  /** A wrong magic or version is rejected on the five header bytes alone. */
  lemma {:induction false} HeaderRejected(crc: Crc32, staging: Option<Text>, createOk: Text -> bool,
                       expected: Option<Expected>, header: seq<Byte>, tail: seq<Byte>)
    requires |header| == |Header| && header != Header
    ensures header[..4] != Magic ==>
      ReceiveFiles(crc, staging, createOk, expected, header + tail) == Err(BadMagic)
    ensures header[..4] == Magic ==>
      ReceiveFiles(crc, staging, createOk, expected, header + tail) == Err(BadVersion)
  {
    assert (header + tail)[..|Header|] == header;
    if header[..4] == Magic {
      assert header == header[..4] + [header[4]];
    }
  }

  /** A declared count other than the demanded one is rejected right after
      the count is read, before the staging directory is created. */
  lemma {:induction false} CountRejected(crc: Crc32, staging: Option<Text>, createOk: Text -> bool,
                      expected: Option<Expected>, countBytes: seq<Byte>, count: nat, tail: seq<Byte>)
    requires Varint.Encodes(countBytes, count)
    requires !CountAgrees(expected, count)
    ensures ReceiveFiles(crc, staging, createOk, expected, Header + countBytes + tail)
      == Err(CountMismatch(count, DemandedCount(expected).value))
  {
    var input := Header + countBytes + tail;
    assert input[..|Header|] == Header;
    assert input[|Header|..] == countBytes + tail;
    Varint.ReadEncoding(countBytes, count, tail);
  }

  /** A good header and count are read, leaving whatever follows. */
  lemma {:induction false} PreambleRead(countBytes: seq<Byte>, count: nat, body: seq<Byte>)
    requires Varint.Encodes(countBytes, count)
    ensures ReadPreamble(Header + countBytes + body) == Ok(Parsed(count, body))
  {
    var input := Header + countBytes + body;
    assert input == Header + (countBytes + body);
    ReadExactPrefix(Header, countBytes + body);
    Varint.ReadEncoding(countBytes, count, body);
  }

  /** After a good header and count, the receive is the frames followed by
      the list check. */
  lemma {:induction false} ReceiveAfterCount(crc: Crc32, staging: Text, createOk: Text -> bool,
                          expected: Option<Expected>, countBytes: seq<Byte>, count: nat, body: seq<Byte>)
    requires Varint.Encodes(countBytes, count)
    requires CountAgrees(expected, count)
    ensures ReceiveFiles(crc, Some(staging), createOk, expected, Header + countBytes + body)
      == match ReadFrames(crc, createOk, body, count)
         case Err(e) => Err(e)
         case Ok(files) =>
           if ListAgrees(expected, Names(files.value)) then Ok(Parsed(Received(staging, files.value), files.rest))
           else Err(FileListMismatch)
  {
    var input := Header + countBytes + body;
    assert input[..|Header|] == Header;
    assert input[|Header|..] == countBytes + body;
    Varint.ReadEncoding(countBytes, count, body);
  }

  /** When every frame is accepted but the names are not the expected ones
      (as multisets), the receive fails after all frames were read. */
  lemma {:induction false} ListMismatchRejected(crc: Crc32, staging: Text, createOk: Text -> bool, expected: seq<Text>,
                             countBytes: seq<Byte>, body: seq<Byte>, files: seq<FileEntry>, rest: seq<Byte>)
    requires Varint.Encodes(countBytes, |expected|)
    requires ReadFrames(crc, createOk, body, |expected|) == Ok(Parsed(files, rest))
    requires multiset(Names(files)) != multiset(expected)
    ensures ReceiveFiles(crc, Some(staging), createOk, Some(List(expected)), Header + countBytes + body)
      == Err(FileListMismatch)
  {
    ListCheckIsMultiset(Some(List(expected)), Names(files));
    ListCheckFails(crc, staging, createOk, expected, countBytes, body, files, rest);
  }

  lemma {:induction false} ListCheckFails(crc: Crc32, staging: Text, createOk: Text -> bool, expected: seq<Text>,
                       countBytes: seq<Byte>, body: seq<Byte>, files: seq<FileEntry>, rest: seq<Byte>)
    requires Varint.Encodes(countBytes, |expected|)
    requires ReadFrames(crc, createOk, body, |expected|) == Ok(Parsed(files, rest))
    requires !ListAgrees(Some(List(expected)), Names(files))
    ensures ReceiveFiles(crc, Some(staging), createOk, Some(List(expected)), Header + countBytes + body)
      == Err(FileListMismatch)
  {
    assert CountAgrees(Some(List(expected)), |expected|);
    ReceiveAfterCount(crc, staging, createOk, Some(List(expected)), countBytes, |expected|, body);
  }

  /** The list check counts repetitions: `a, a, b` is not accepted for the
      expected list `a, b, b`, though every name of either list is in the
      other. */
  lemma {:induction false} ListCheckCountsRepeats(a: Text, b: Text)
    requires a != b
    ensures forall n :: n in [a, a, b] <==> n in [a, b, b]
    ensures !ListAgrees(Some(List([a, b, b])), [a, a, b])
  {
    ListCheckIsMultiset(Some(List([a, b, b])), [a, a, b]);
    assert multiset([a, a, b])[a] == 2;
    assert multiset([a, b, b])[a] == 1;
  }

  /** A compression code other than none is rejected on that byte alone. */
  lemma {:induction false} CompressionRejected(crc: Crc32, createOk: Text -> bool, code: Byte, tail: seq<Byte>)
    requires code != NoCompression
    ensures ReadFrame(crc, createOk, [code] + tail) == Err(UnsupportedCompression(code))
  {
  }

  /** A name length above 512 is rejected before any name byte is read. */
  lemma {:induction false} LongNameRejected(crc: Crc32, createOk: Text -> bool, nameLength: seq<Byte>, n: nat, tail: seq<Byte>)
    requires Varint.Encodes(nameLength, n) && n > MaxNameLength
    ensures ReadFrame(crc, createOk, [NoCompression] + nameLength + tail) == Err(NameTooLong(n))
  {
    assert ([NoCompression] + nameLength + tail)[1..] == nameLength + tail;
    Varint.ReadEncoding(nameLength, n, tail);
  }

  /** Name bytes that are not UTF-8 are rejected before the checksum is read. */
  lemma {:induction false} InvalidNameRejected(crc: Crc32, createOk: Text -> bool, nameLength: seq<Byte>, name: seq<Byte>, tail: seq<Byte>)
    requires Varint.Encodes(nameLength, |name|) && |name| <= MaxNameLength
    requires !Utf8.Valid(name)
    ensures ReadFrame(crc, createOk, [NoCompression] + nameLength + name + tail) == Err(InvalidName)
  {
    Regroup([NoCompression], nameLength, name, tail);
    ReadByteFront(NoCompression, nameLength + (name + tail));
    Varint.ReadEncoding(nameLength, |name|, name + tail);
    ReadExactPrefix(name, tail);
  }

  /** A content length above 100 MiB is rejected before any content byte is
      read and before the staged file is created. */
  lemma {:induction false} LargeFileRejected(crc: Crc32, createOk: Text -> bool, nameLength: seq<Byte>, name: Text,
                          checksum: U32, contentLength: seq<Byte>, n: nat, tail: seq<Byte>)
    requires Varint.Encodes(nameLength, |name|) && |name| <= MaxNameLength && Utf8.Valid(name)
    requires Varint.Encodes(contentLength, n) && n > MaxFileLength
    ensures ReadFrame(crc, createOk, FramePrefix(nameLength, name, checksum, contentLength) + tail)
      == Err(FileTooLarge(n))
  {
    HeadFields(nameLength, name, checksum, contentLength, n, tail);
  }

  /** Input that ends before the declared content does is rejected. */
  lemma {:induction false} ShortContentRejected(crc: Crc32, createOk: Text -> bool, nameLength: seq<Byte>, name: Text,
                             checksum: U32, contentLength: seq<Byte>, n: nat, tail: seq<Byte>)
    requires Varint.Encodes(nameLength, |name|) && |name| <= MaxNameLength && Utf8.Valid(name)
    requires Varint.Encodes(contentLength, n) && n <= MaxFileLength
    requires createOk(name) && |tail| < n
    ensures ReadFrame(crc, createOk, FramePrefix(nameLength, name, checksum, contentLength) + tail)
      == Err(UnexpectedEnd)
  {
    HeadFields(nameLength, name, checksum, contentLength, n, tail);
  }

  /** A frame whose fields are within bounds is accepted exactly when the
      checksum of its content is the declared one; it consumes exactly the
      declared content and leaves the rest unread. */
  lemma {:induction false} FrameAccepted(crc: Crc32, createOk: Text -> bool, nameLength: seq<Byte>, name: Text,
                      checksum: U32, contentLength: seq<Byte>, content: seq<Byte>, rest: seq<Byte>)
    requires Varint.Encodes(nameLength, |name|) && |name| <= MaxNameLength && Utf8.Valid(name)
    requires Varint.Encodes(contentLength, |content|) && |content| <= MaxFileLength
    requires createOk(name)
    ensures ReadFrame(crc, createOk, FramePrefix(nameLength, name, checksum, contentLength) + content + rest)
      == if crc(content) == checksum then Ok(Parsed(FileEntry(name, content), rest))
         else Err(ChecksumMismatch(name))
  {
    HeadBeforeContent(nameLength, name, checksum, contentLength, content, rest);
    ContentAfterHead(crc, createOk, FramePrefix(nameLength, name, checksum, contentLength) + content + rest,
                     FrameHead(name, checksum, |content|), content, rest);
  }

  lemma {:induction false} HeadBeforeContent(nameLength: seq<Byte>, name: Text, checksum: U32, contentLength: seq<Byte>,
                          content: seq<Byte>, rest: seq<Byte>)
    requires Varint.Encodes(nameLength, |name|) && |name| <= MaxNameLength && Utf8.Valid(name)
    requires Varint.Encodes(contentLength, |content|) && |content| <= MaxFileLength
    ensures ReadFrameHead(FramePrefix(nameLength, name, checksum, contentLength) + content + rest)
      == Ok(Parsed(FrameHead(name, checksum, |content|), content + rest))
  {
    assert FramePrefix(nameLength, name, checksum, contentLength) + content + rest
      == FramePrefix(nameLength, name, checksum, contentLength) + (content + rest);
    HeadFields(nameLength, name, checksum, contentLength, |content|, content + rest);
  }

  /** After a head that declares the length of `content`, the frame is
      `content` when its checksum is the declared one. */
  lemma {:induction false} ContentAfterHead(crc: Crc32, createOk: Text -> bool, s: seq<Byte>, head: FrameHead,
                         content: seq<Byte>, rest: seq<Byte>)
    requires ReadFrameHead(s) == Ok(Parsed(head, content + rest)) && head.length == |content|
    requires createOk(head.name)
    ensures ReadFrame(crc, createOk, s)
      == if crc(content) == head.checksum then Ok(Parsed(FileEntry(head.name, content), rest))
         else Err(ChecksumMismatch(head.name))
  {
    assert (content + rest)[..|content|] == content && (content + rest)[|content|..] == rest;
    FrameAfterHead(crc, createOk, s, head, content + rest);
  }

  /** Once the head of a frame is read, the frame is decided by the staged
      file's creation, the content's length and the content's checksum. */
  lemma {:induction false} FrameAfterHead(crc: Crc32, createOk: Text -> bool, s: seq<Byte>, head: FrameHead, afterHead: seq<Byte>)
    requires ReadFrameHead(s) == Ok(Parsed(head, afterHead))
    ensures ReadFrame(crc, createOk, s)
      == if !createOk(head.name) then Err(CreateFailed(head.name))
         else if |afterHead| < head.length then Err(UnexpectedEnd)
         else if crc(afterHead[..head.length]) != head.checksum then Err(ChecksumMismatch(head.name))
         else Ok(Parsed(FileEntry(head.name, afterHead[..head.length]), afterHead[head.length..]))
  {
  }

  lemma {:induction false} PrefixRegroup(nameLength: seq<Byte>, name: Text, checksum: U32, contentLength: seq<Byte>, tail: seq<Byte>)
    ensures FramePrefix(nameLength, name, checksum, contentLength) + tail
      == [NoCompression] + nameLength + name + (BigEndian32(checksum) + (contentLength + tail))
  {
  }

  /** The name of a frame is read from its fields, leaving whatever follows. */
  lemma {:induction false} NameFields(nameLength: seq<Byte>, name: Text, tail: seq<Byte>)
    requires Varint.Encodes(nameLength, |name|) && |name| <= MaxNameLength && Utf8.Valid(name)
    ensures ReadName([NoCompression] + nameLength + name + tail) == Ok(Parsed(name, tail))
  {
    Regroup([NoCompression], nameLength, name, tail);
    ReadByteFront(NoCompression, nameLength + (name + tail));
    Varint.ReadEncoding(nameLength, |name|, name + tail);
    ReadExactPrefix(name, tail);
  }

  /** The head of a frame is read from its fields, leaving whatever follows. */
  lemma {:induction false} HeadFields(nameLength: seq<Byte>, name: Text, checksum: U32, contentLength: seq<Byte>, n: nat, tail: seq<Byte>)
    requires Varint.Encodes(nameLength, |name|) && |name| <= MaxNameLength && Utf8.Valid(name)
    requires Varint.Encodes(contentLength, n)
    ensures ReadFrameHead(FramePrefix(nameLength, name, checksum, contentLength) + tail)
      == if n > MaxFileLength then Err(FileTooLarge(n))
         else Ok(Parsed(FrameHead(name, checksum, n), tail))
  {
    var afterName := BigEndian32(checksum) + (contentLength + tail);
    PrefixRegroup(nameLength, name, checksum, contentLength, tail);
    NameFields(nameLength, name, afterName);
    ReadU32Written(checksum, contentLength + tail);
    Varint.ReadEncoding(contentLength, n, tail);
  }
}

=== FILE: round_trip.dfy ===
/**
 The sender and the receiver agree: what `send` writes, `receive_files`
 reads back as the same files, in the same order, leaving whatever followed
 the stream unread.
 */
module RoundTrip {
  import opened Bytes
  import opened Failures
  import opened Stream
  import opened Wire
  import opened Receive
  import Send
  import Varint
  import Utf8
  import ReceiveChecks

  /** A written frame splits into its fields. */
  lemma {:induction false} FrameSplits(crc: Crc32, f: FileEntry, rest: seq<Byte>)
    ensures Send.Frame(crc, f) + rest
      == ReceiveChecks.FramePrefix(Varint.Encode(|f.name|), f.name, crc(f.content), Varint.Encode(|f.content|))
         + f.content + rest
  {
  }

  /** One frame of an acceptable file is read back as that file. */
  lemma {:induction false} FrameRoundTrip(crc: Crc32, createOk: Text -> bool, f: FileEntry, rest: seq<Byte>)
    requires Accepted(createOk, f)
    ensures ReadFrame(crc, createOk, Send.Frame(crc, f) + rest) == Ok(Parsed(f, rest))
  {
    Varint.RoundTrip(|f.name|, []);
    Varint.RoundTrip(|f.content|, []);
    FrameSplits(crc, f, rest);
    ReceiveChecks.FrameAccepted(crc, createOk, Varint.Encode(|f.name|), f.name, crc(f.content),
                                Varint.Encode(|f.content|), f.content, rest);
  }

  /** `Send.Frame` as a writer of one value. */
  function FrameWriter(crc: Crc32): FileEntry -> seq<Byte> {
    f => Send.Frame(crc, f)
  }

  /** The sender's frames are the frame writer's output, file after file. */
  lemma {:induction false} FramesAreConcat(crc: Crc32, files: seq<FileEntry>)
    ensures Send.Frames(crc, files) == Concat(FrameWriter(crc), files)
    decreases |files|
  {
    if |files| > 0 {
      FramesAreConcat(crc, files[1..]);
    }
  }

  /** Accepted frames are read back, and the frames after them are read
      from what follows. */
  lemma {:induction false} FramesThen(crc: Crc32, createOk: Text -> bool, files: seq<FileEntry>, tail: seq<Byte>, more: nat)
    requires AllAccepted(createOk, files)
    ensures ReadFrames(crc, createOk, Send.Frames(crc, files) + tail, |files| + more)
      == Prepend(files, ReadFrames(crc, createOk, tail, more))
  {
    forall i, t | 0 <= i < |files|
      ensures FrameReader(crc, createOk)(FrameWriter(crc)(files[i]) + t) == Ok(Parsed(files[i], t))
    {
      FrameRoundTrip(crc, createOk, files[i], t);
    }
    FramesAreConcat(crc, files);
    RepeatThen(FrameReader(crc, createOk), FrameWriter(crc), files, tail, more);
  }

  /** The frames of accepted files are read back as those files. */
  lemma {:induction false} FramesRoundTrip(crc: Crc32, createOk: Text -> bool, files: seq<FileEntry>, rest: seq<Byte>)
    requires AllAccepted(createOk, files)
    ensures ReadFrames(crc, createOk, Send.Frames(crc, files) + rest, |files|) == Ok(Parsed(files, rest))
  {
    FramesThen(crc, createOk, files, rest, 0);
    assert files + [] == files;
  }

  /** The plan's expectation holds for `files`: the count it demands, and,
      for a list, the same names with the same multiplicities. */
  predicate Meets(expected: Option<Expected>, files: seq<FileEntry>) {
    && CountAgrees(expected, |files|)
    && (expected.Some? && expected.value.List? ==> multiset(Names(files)) == multiset(expected.value.names))
  }

  /** The stream of receivable files that meet the expectation is received
      as exactly those files, in order, into the staging directory; the
      input after the stream is left unread. */
  lemma {:induction false} EncodeRoundTrip(crc: Crc32, staging: Text, createOk: Text -> bool, expected: Option<Expected>,
                        files: seq<FileEntry>, rest: seq<Byte>)
    requires |files| < Varint.Limit
    requires AllAccepted(createOk, files)
    requires Meets(expected, files)
    ensures ReceiveFiles(crc, Some(staging), createOk, expected, Send.Encode(crc, files) + rest)
      == Ok(Parsed(Received(staging, files), rest))
  {
    var body := Send.Frames(crc, files) + rest;
    assert Send.Encode(crc, files) + rest == Header + Varint.Encode(|files|) + body;
    Varint.RoundTrip(|files|, []);
    FramesRoundTrip(crc, createOk, files, rest);
    ListCheckIsMultiset(expected, Names(files));
    ReceiveChecks.ReceiveAfterCount(crc, staging, createOk, expected, Varint.Encode(|files|), |files|, body);
  }

  /** The stream of receivable files that do not meet the expectation is
      rejected: the count is checked before any frame, the names after all
      of them. */
  lemma {:induction false} EncodeRejectedByPlan(crc: Crc32, staging: Text, createOk: Text -> bool, expected: Option<Expected>,
                             files: seq<FileEntry>, rest: seq<Byte>)
    requires |files| < Varint.Limit
    requires AllAccepted(createOk, files)
    requires !Meets(expected, files)
    ensures !CountAgrees(expected, |files|) ==>
      ReceiveFiles(crc, Some(staging), createOk, expected, Send.Encode(crc, files) + rest)
        == Err(CountMismatch(|files|, DemandedCount(expected).value))
    ensures CountAgrees(expected, |files|) ==>
      ReceiveFiles(crc, Some(staging), createOk, expected, Send.Encode(crc, files) + rest) == Err(FileListMismatch)
  {
    var body := Send.Frames(crc, files) + rest;
    assert Send.Encode(crc, files) + rest == Header + Varint.Encode(|files|) + body;
    Varint.RoundTrip(|files|, []);
    if !CountAgrees(expected, |files|) {
      ReceiveChecks.CountRejected(crc, Some(staging), createOk, expected, Varint.Encode(|files|), |files|, body);
    } else {
      FramesRoundTrip(crc, createOk, files, rest);
      ListCheckIsMultiset(expected, Names(files));
      ReceiveChecks.ReceiveAfterCount(crc, staging, createOk, expected, Varint.Encode(|files|), |files|, body);
    }
  }

  /** Every argument of the sender can be received: it exists, its name
      fits in 512 bytes of UTF-8, its content in 100 MiB, and its staged
      file can be created. */
  predicate Deliverable(createOk: Text -> bool, args: seq<string>, disk: map<string, seq<Byte>>) {
    forall i :: 0 <= i < |args| ==>
      && args[i] in disk
      && |Utf8.EncodeString(args[i])| <= MaxNameLength
      && |disk[args[i]]| <= MaxFileLength
      && createOk(Utf8.EncodeString(args[i]))
  }

  /** End to end: the sender's output for deliverable arguments is received
      as their entries, the name of each being the UTF-8 of its argument. */
  lemma {:induction false} SendThenReceive(crc: Crc32, staging: Text, createOk: Text -> bool, expected: Option<Expected>,
                        args: seq<string>, disk: map<string, seq<Byte>>, rest: seq<Byte>)
    requires |args| < Varint.Limit
    requires Deliverable(createOk, args, disk)
    requires Send.AllPresent(args, disk) && Meets(expected, Send.Entries(args, disk))
    ensures Send.SendArgs(crc, args, disk).failed == None
    ensures ReceiveFiles(crc, Some(staging), createOk, expected, Send.SendArgs(crc, args, disk).output + rest)
      == Ok(Parsed(Received(staging, Send.Entries(args, disk)), rest))
  {
    var files := Send.Entries(args, disk);
    Send.SendAllPresent(crc, args, disk);
    EntriesReceivable(createOk, args, disk);
    EncodeRoundTrip(crc, staging, createOk, expected, files, rest);
  }

  /** A stream that ends right after the opening of a frame is not a frame. */
  lemma {:induction false} OpeningAloneRejected(crc: Crc32, createOk: Text -> bool, name: Text)
    requires Utf8.Valid(name) && |name| < Varint.Limit
    ensures ReadFrame(crc, createOk, Send.Opening(name)).Err?
  {
    Varint.RoundTrip(|name|, []);
    assert Send.Opening(name) == [NoCompression] + Varint.Encode(|name|) + name + [];
    if |name| > MaxNameLength {
      ReceiveChecks.LongNameRejected(crc, createOk, Varint.Encode(|name|), |name|, name);
    } else {
      ReceiveChecks.NameFields(Varint.Encode(|name|), name, []);
    }
  }

  /** The frame of a file the receiver does not accept is rejected: its
      name is too long, its content too large, or its staged file cannot be
      created. */
  lemma {:induction false} FrameRejected(crc: Crc32, createOk: Text -> bool, f: FileEntry, rest: seq<Byte>)
    requires Utf8.Valid(f.name) && |f.name| < Varint.Limit && |f.content| < Varint.Limit
    requires !Accepted(createOk, f)
    ensures ReadFrame(crc, createOk, Send.Frame(crc, f) + rest).Err?
  {
    if |f.name| > MaxNameLength {
      LongNameFrameRejected(crc, createOk, f, rest);
    } else {
      FrameSplits(crc, f, rest);
      Varint.RoundTrip(|f.name|, []);
      Varint.RoundTrip(|f.content|, []);
      var prefix := ReceiveChecks.FramePrefix(Varint.Encode(|f.name|), f.name, crc(f.content), Varint.Encode(|f.content|));
      assert prefix + f.content + rest == prefix + (f.content + rest);
      if |f.content| > MaxFileLength {
        ReceiveChecks.LargeFileRejected(crc, createOk, Varint.Encode(|f.name|), f.name, crc(f.content),
                                        Varint.Encode(|f.content|), |f.content|, f.content + rest);
      } else {
        ReceiveChecks.HeadBeforeContent(Varint.Encode(|f.name|), f.name, crc(f.content),
                                        Varint.Encode(|f.content|), f.content, rest);
        ReceiveChecks.FrameAfterHead(crc, createOk, prefix + f.content + rest,
                                     FrameHead(f.name, crc(f.content), |f.content|), f.content + rest);
      }
    }
  }

  /** The frame of a file whose name is longer than 512 bytes is rejected
      at its name length. */
  lemma {:induction false} LongNameFrameRejected(crc: Crc32, createOk: Text -> bool, f: FileEntry, rest: seq<Byte>)
    requires MaxNameLength < |f.name| < Varint.Limit
    ensures ReadFrame(crc, createOk, Send.Frame(crc, f) + rest).Err?
  {
    var e1 := Varint.Encode(|f.name|);
    var after := f.name + BigEndian32(crc(f.content)) + Varint.Encode(|f.content|) + f.content + rest;
    Varint.RoundTrip(|f.name|, []);
    assert Send.Frame(crc, f) + rest == [NoCompression] + e1 + after;
    ReceiveChecks.LongNameRejected(crc, createOk, e1, |f.name|, after);
  }

  /** The frames of `files` and a tail, around the `q`-th file. */
  lemma {:induction false} FramesSplitAt(crc: Crc32, files: seq<FileEntry>, q: nat, tail: seq<Byte>)
    requires q < |files|
    ensures Send.Frames(crc, files) + tail
      == Send.Frames(crc, files[..q]) + (Send.Frame(crc, files[q]) + (Send.Frames(crc, files[q + 1..]) + tail))
  {
    FramesAreConcat(crc, files);
    FramesAreConcat(crc, files[..q]);
    FramesAreConcat(crc, files[q + 1..]);
    ConcatSplitAt(FrameWriter(crc), files, q, tail);
  }

  /** The first file that the receiver does not accept, when there is one. */
  lemma {:induction false} FirstRejected(createOk: Text -> bool, files: seq<FileEntry>) returns (q: nat)
    requires !AllAccepted(createOk, files)
    ensures q < |files| && AllAccepted(createOk, files[..q]) && !Accepted(createOk, files[q])
  {
    q := 0;
    while q < |files| && Accepted(createOk, files[q])
      invariant q <= |files|
      invariant forall j :: 0 <= j < q ==> Accepted(createOk, files[j])
    {
      q := q + 1;
    }
    assert forall j :: 0 <= j < q ==> files[..q][j] == files[j];
  }

  /** Frames one of which the receiver does not accept are rejected, at the
      latest at that frame. */
  lemma {:induction false} FramesRejected(crc: Crc32, createOk: Text -> bool, files: seq<FileEntry>, tail: seq<Byte>, count: nat, q: nat)
    requires q < |files| <= count
    requires AllAccepted(createOk, files[..q]) && !Accepted(createOk, files[q])
    requires Utf8.Valid(files[q].name) && |files[q].name| < Varint.Limit && |files[q].content| < Varint.Limit
    ensures ReadFrames(crc, createOk, Send.Frames(crc, files) + tail, count).Err?
  {
    var after := Send.Frames(crc, files[q + 1..]) + tail;
    var bad := Send.Frame(crc, files[q]) + after;
    var before := files[..q];
    var whole := Send.Frames(crc, files) + tail;
    FramesSplitAt(crc, files, q, tail);
    assert whole == Send.Frames(crc, before) + bad;
    FrameRejected(crc, createOk, files[q], after);
    FramesThenRejected(crc, createOk, before, bad, count);
  }

  /** Accepted frames followed by a frame the receiver rejects are
      rejected. */
  lemma {:induction false} FramesThenRejected(crc: Crc32, createOk: Text -> bool, files: seq<FileEntry>, bad: seq<Byte>, count: nat)
    requires AllAccepted(createOk, files)
    requires |files| < count && ReadFrame(crc, createOk, bad).Err?
    ensures ReadFrames(crc, createOk, Send.Frames(crc, files) + bad, count).Err?
  {
    var more := count - |files|;
    FramesThen(crc, createOk, files, bad, more);
    assert ReadFrames(crc, createOk, bad, more).Err?;
  }

  /** Every entry's name and content lengths fit in a `usize`. */
  predicate Sized(files: seq<FileEntry>) {
    forall i :: 0 <= i < |files| ==> |files[i].name| < Varint.Limit && |files[i].content| < Varint.Limit
  }

  /** A sender that stopped at a missing file never produces a stream the
      receiver accepts: either the count disagrees, or the frames before
      the missing file are read and a frame the receiver does not accept,
      or the truncated frame after them, fails. */
  lemma {:induction false} PartialSendRejected(crc: Crc32, staging: Option<Text>, createOk: Text -> bool, expected: Option<Expected>,
                            args: seq<string>, disk: map<string, seq<Byte>>, k: nat)
    requires |args| < Varint.Limit
    requires k < |args| && args[k] !in disk && |Utf8.EncodeString(args[k])| < Varint.Limit
    requires Send.AllPresent(args[..k], disk) && Sized(Send.Entries(args[..k], disk))
    ensures Send.SendArgs(crc, args, disk).failed == Some(args[k])
    ensures ReceiveFiles(crc, staging, createOk, expected, Send.SendArgs(crc, args, disk).output).Err?
  {
    Send.SendStopsAtMissing(crc, args, disk, k);
    var files := Send.Entries(args[..k], disk);
    var opening := Send.Opening(Utf8.EncodeString(args[k]));
    var body := Send.Frames(crc, files) + opening;
    Varint.RoundTrip(|args|, []);
    assert Send.SendArgs(crc, args, disk).output == Header + Varint.Encode(|args|) + body;
    if !CountAgrees(expected, |args|) {
      ReceiveChecks.CountRejected(crc, staging, createOk, expected, Varint.Encode(|args|), |args|, body);
    } else if staging.None? {
      ReceiveChecks.PreambleRead(Varint.Encode(|args|), |args|, body);
    } else {
      PartialFramesRejected(crc, createOk, args, disk, k);
      ReceiveChecks.ReceiveAfterCount(crc, staging.value, createOk, expected, Varint.Encode(|args|), |args|, body);
    }
  }

  /** The frames a sender writes before a missing file, followed by the
      opening of that file's frame, are not `|args|` frames the receiver
      accepts. */
  lemma {:induction false} PartialFramesRejected(crc: Crc32, createOk: Text -> bool, args: seq<string>, disk: map<string, seq<Byte>>, k: nat)
    requires k < |args| && |Utf8.EncodeString(args[k])| < Varint.Limit
    requires Send.AllPresent(args[..k], disk) && Sized(Send.Entries(args[..k], disk))
    ensures ReadFrames(crc, createOk, Send.Frames(crc, Send.Entries(args[..k], disk))
                                      + Send.Opening(Utf8.EncodeString(args[k])), |args|).Err?
  {
    var files := Send.Entries(args[..k], disk);
    var opening := Send.Opening(Utf8.EncodeString(args[k]));
    if AllAccepted(createOk, files) {
      Utf8.EncodeStringValid(args[k]);
      OpeningAloneRejected(crc, createOk, Utf8.EncodeString(args[k]));
      assert |files| == k;
      FramesThenRejected(crc, createOk, files, opening, |args|);
    } else {
      var q := FirstRejected(createOk, files);
      assert args[..k][q] == args[q];
      Utf8.EncodeStringValid(args[q]);
      FramesRejected(crc, createOk, files, opening, |args|, q);
    }
  }

  /** The entries of deliverable arguments are receivable. */
  lemma {:induction false} EntriesReceivable(createOk: Text -> bool, args: seq<string>, disk: map<string, seq<Byte>>)
    requires Send.AllPresent(args, disk) && Deliverable(createOk, args, disk)
    ensures AllAccepted(createOk, Send.Entries(args, disk))
  {
    var files := Send.Entries(args, disk);
    forall i | 0 <= i < |files|
      ensures Accepted(createOk, files[i])
    {
      Utf8.EncodeStringValid(args[i]);
    }
  }
}

=== FILE: send.dfy ===
/**
 The sender (`send`): writes its file arguments to standard output in the
 wire format.

 The file system is a map from argument to content; the content a file has
 when it is measured is the content it has when it is copied.
 */
module Send {
  import opened Bytes
  import opened Failures
  import opened Wire
  import Varint
  import Utf8

  /** The frame of one file. */
  function Frame(crc: Crc32, f: FileEntry): seq<Byte> {
    Opening(f.name) + BigEndian32(crc(f.content)) + Varint.Encode(|f.content|) + f.content
  }

  /** The part of a frame written before the file is opened: compression
      code, name length and name. */
  function Opening(name: Text): seq<Byte> {
    [NoCompression] + Varint.Encode(|name|) + name
  }

  /** The frames of `files`, in order. */
  function Frames(crc: Crc32, files: seq<FileEntry>): seq<Byte> {
    if |files| == 0 then [] else Frame(crc, files[0]) + Frames(crc, files[1..])
  }

  /** The whole stream for `files`. */
  function Encode(crc: Crc32, files: seq<FileEntry>): seq<Byte> {
    Header + Varint.Encode(|files|) + Frames(crc, files)
  }

  /** What the sender wrote, and the argument it could not open, if any. */
  datatype Sent = Sent(output: seq<Byte>, failed: Option<string>)

  /** `inner`: the header and count, then a frame per argument; an argument
      that cannot be opened ends the run after its name was written. */
  function SendArgs(crc: Crc32, args: seq<string>, disk: map<string, seq<Byte>>): (r: Sent)
  {
    var frames := SendFrames(crc, args, disk);
    Sent(Header + Varint.Encode(|args|) + frames.output, frames.failed)
  }

  /** The frames for `args`, stopping at the first one that cannot be opened. */
  function SendFrames(crc: Crc32, args: seq<string>, disk: map<string, seq<Byte>>): (r: Sent)
    ensures r.failed.None? <==> AllPresent(args, disk)
    ensures r.failed.Some? ==> r.failed.value in args && r.failed.value !in disk
  {
    if |args| == 0 then Sent([], None)
    else
      var name := Utf8.EncodeString(args[0]);
      if args[0] !in disk then Sent(Opening(name), Some(args[0]))
      else
        var rest := SendFrames(crc, args[1..], disk);
        Sent(Frame(crc, FileEntry(name, disk[args[0]])) + rest.output, rest.failed)
  }

  /** Every argument names an existing file. */
  predicate AllPresent(args: seq<string>, disk: map<string, seq<Byte>>) {
    forall i :: 0 <= i < |args| ==> args[i] in disk
  }

  /** The entries the sender transmits for arguments that all exist. */
  function Entries(args: seq<string>, disk: map<string, seq<Byte>>): (r: seq<FileEntry>)
    requires AllPresent(args, disk)
    ensures |r| == |args|
    ensures forall i :: 0 <= i < |args| ==>
      r[i] == FileEntry(Utf8.EncodeString(args[i]), disk[args[i]])
  {
    if |args| == 0 then [] else [FileEntry(Utf8.EncodeString(args[0]), disk[args[0]])] + Entries(args[1..], disk)
  }

  /** When every argument exists, the sender writes exactly the encoding of
      their entries, in argument order. */
  lemma {:induction false} SendAllPresent(crc: Crc32, args: seq<string>, disk: map<string, seq<Byte>>)
    requires AllPresent(args, disk)
    ensures SendFrames(crc, args, disk) == Sent(Frames(crc, Entries(args, disk)), None)
    ensures SendArgs(crc, args, disk) == Sent(Encode(crc, Entries(args, disk)), None)
  {
    if |args| > 0 {
      SendAllPresent(crc, args[1..], disk);
      assert Entries(args, disk)[1..] == Entries(args[1..], disk);
    }
  }

  /** When argument `k` is the first that does not exist, the output is the
      frames of the arguments before it and the opening of its own frame. */
  lemma {:induction false} SendStopsAtMissing(crc: Crc32, args: seq<string>, disk: map<string, seq<Byte>>, k: nat)
    requires k < |args| && args[k] !in disk
    requires AllPresent(args[..k], disk)
    ensures SendFrames(crc, args, disk)
      == Sent(Frames(crc, Entries(args[..k], disk)) + Opening(Utf8.EncodeString(args[k])), Some(args[k]))
  {
    var opening := Opening(Utf8.EncodeString(args[k]));
    if k == 0 {
      assert Entries(args[..k], disk) == [];
      assert Frames(crc, []) + opening == opening;
    } else {
      var tail := args[1..];
      assert tail[..k - 1] == args[1..k] && tail[k - 1] == args[k];
      assert args[0] == args[..k][0];
      assert AllPresent(tail[..k - 1], disk);
      SendStopsAtMissing(crc, tail, disk, k - 1);
      FramesOfPrefix(crc, args, disk, k);
      SendFramesStep(crc, args, disk);
      var frame := Frame(crc, FileEntry(Utf8.EncodeString(args[0]), disk[args[0]]));
      AppendAssociates(frame, Frames(crc, Entries(args[1..k], disk)), opening);
    }
  }

  /** A present first argument is sent as its frame, then the others. */
  lemma {:induction false} SendFramesStep(crc: Crc32, args: seq<string>, disk: map<string, seq<Byte>>)
    requires |args| > 0 && args[0] in disk
    ensures SendFrames(crc, args, disk)
      == Sent(Frame(crc, FileEntry(Utf8.EncodeString(args[0]), disk[args[0]])) + SendFrames(crc, args[1..], disk).output,
              SendFrames(crc, args[1..], disk).failed)
  {
  }

  lemma {:induction false} AppendAssociates(a: seq<Byte>, b: seq<Byte>, c: seq<Byte>)
    ensures a + (b + c) == (a + b) + c
  {
  }

  /** The frames of the first `k` arguments are the first one's frame followed
      by the frames of the next `k - 1`. */
  lemma {:induction false} FramesOfPrefix(crc: Crc32, args: seq<string>, disk: map<string, seq<Byte>>, k: nat)
    requires 0 < k <= |args|
    requires AllPresent(args[..k], disk)
    ensures AllPresent(args[1..k], disk)
    ensures Entries(args[..k], disk)[0] == FileEntry(Utf8.EncodeString(args[0]), disk[args[0]])
    ensures Frames(crc, Entries(args[..k], disk))
      == Frame(crc, Entries(args[..k], disk)[0]) + Frames(crc, Entries(args[1..k], disk))
  {
    var entries := Entries(args[..k], disk);
    assert args[..k][1..] == args[1..k];
    assert entries[1..] == Entries(args[1..k], disk);
  }

  /** The length-and-checksum pass over a file (`read` into a 512-byte buffer
      until it returns 0). `chunk(i)` decides how many bytes the `i`-th read
      returns, within what the buffer and the file allow. */
  method Measure(crc: Crc32, content: seq<Byte>, chunk: nat -> nat) returns (len: nat, sum: U32)
    ensures len == |content|
    ensures sum == crc(content)
  {
    var digest := Digest([]);
    len := 0;
    var i := 0;
    while true
      invariant len <= |content|
      invariant digest.written == content[..len]
      decreases |content| - len
    {
      var left := |content| - len;
      var read := if left == 0 then 0 else 1 + chunk(i) % Min(512, left);
      if read == 0 {
        break;
      }
      digest := digest.Write(content[len..len + read]);
      assert content[..len + read] == content[..len] + content[len..len + read];
      len := len + read;
      i := i + 1;
    }
    assert content[..len] == content;
    sum := digest.Sum32(crc);
  }

  function Min(a: nat, b: nat): nat {
    if a < b then a else b
  }
}

=== FILE: ssh.dfy ===
/**
 The forced SSH command: the receiver reads `SSH_ORIGINAL_COMMAND`, splits
 it on single spaces, drops the empty pieces, and runs the plan named after
 the word `deploy`.

 The command is a byte string; splitting UTF-8 text at the character ` `
 is splitting its bytes at 0x20, since no multi-byte character contains
 that byte.
 */
module Ssh {
  import opened Bytes
  import opened Failures
  import Plans
  import Utf8

  /** `s` has no space in it. */
  predicate NoSpace(s: Text) {
    forall i :: 0 <= i < |s| ==> s[i] != Space
  }

  /** `str::split(' ')`: the pieces between spaces, empty ones included;
      there is always one more piece than there are spaces. */
  function Pieces(s: Text): (r: seq<Text>)
    ensures |r| >= 1
    ensures forall i :: 0 <= i < |r| ==> NoSpace(r[i])
    decreases |s|
  {
    if |s| == 0 then [[]]
    else
      var later := Pieces(s[1..]);
      if s[0] == Space then [[]] + later
      else [[s[0]] + later[0]] + later[1..]
  }

  /** Pieces put back together with one space between each two. */
  function Glue(ps: seq<Text>): Text
    requires |ps| >= 1
    decreases |ps|
  {
    if |ps| == 1 then ps[0] else ps[0] + [Space] + Glue(ps[1..])
  }

  /** Splitting loses nothing: gluing the pieces back gives the command. */
  lemma {:induction false} GluePieces(s: Text)
    ensures Glue(Pieces(s)) == s
    decreases |s|
  {
    if |s| > 0 {
      GluePieces(s[1..]);
      assert s == [s[0]] + s[1..];
      PiecesCons(s[0], s[1..]);
      GlueCons(s[0], Pieces(s[1..]));
    }
  }

  /** Gluing after a byte is prepended to the pieces: a space starts a new
      empty piece, any other byte joins the first piece. */
  lemma {:induction false} GlueCons(c: Byte, later: seq<Text>)
    requires |later| >= 1
    ensures Glue([[]] + later) == [Space] + Glue(later)
    ensures Glue([[c] + later[0]] + later[1..]) == [c] + Glue(later)
  {
    assert ([[]] + later)[1..] == later;
    var ps := [[c] + later[0]] + later[1..];
    assert ps[1..] == later[1..];
    if |later| > 1 {
      assert [c] + later[0] + [Space] + Glue(later[1..]) == [c] + (later[0] + [Space] + Glue(later[1..]));
    }
  }

  /** Splitting spaceless pieces glued with single spaces gives the pieces
      back. */
  lemma {:induction false} PiecesGlue(ps: seq<Text>)
    requires |ps| >= 1
    requires forall i :: 0 <= i < |ps| ==> NoSpace(ps[i])
    ensures Pieces(Glue(ps)) == ps
    decreases |ps|, |ps[0]|
  {
    var p := ps[0];
    if |p| == 0 {
      if |ps| > 1 {
        var g := Glue(ps[1..]);
        assert Glue(ps) == [Space] + g;
        assert (Glue(ps))[1..] == g;
        PiecesGlue(ps[1..]);
        assert [p] + ps[1..] == ps;
      }
    } else {
      var shorter := [p[1..]] + ps[1..];
      assert shorter[1..] == ps[1..];
      forall i | 0 <= i < |shorter|
        ensures NoSpace(shorter[i])
      {
        if i > 0 {
          assert shorter[i] == ps[i];
        }
      }
      PiecesGlue(shorter);
      assert Glue(ps) == [p[0]] + Glue(shorter) by {
        if |ps| > 1 {
          assert Glue(ps) == p + [Space] + Glue(ps[1..]);
          assert Glue(shorter) == p[1..] + [Space] + Glue(ps[1..]);
          assert p == [p[0]] + p[1..];
        } else {
          assert p == [p[0]] + p[1..];
        }
      }
      assert Glue(ps)[1..] == Glue(shorter);
      assert [p[0]] + p[1..] == p;
      assert ps == [p] + ps[1..];
    }
  }

  /** The non-empty pieces, in order (`filter(|x| !x.is_empty())`). */
  function NonEmpty(ps: seq<Text>): (r: seq<Text>)
    ensures |r| <= |ps|
    ensures forall i :: 0 <= i < |r| ==> |r[i]| > 0 && r[i] in ps
    ensures forall i :: 0 <= i < |ps| && |ps[i]| > 0 ==> ps[i] in r
    decreases |ps|
  {
    if |ps| == 0 then []
    else if |ps[0]| == 0 then NonEmpty(ps[1..])
    else [ps[0]] + NonEmpty(ps[1..])
  }

  /** Filtering works piece by piece, so it keeps the order: the filter of
      two runs of pieces is the filter of the first, then of the second. */
  lemma {:induction false} NonEmptyAppend(a: seq<Text>, b: seq<Text>)
    ensures NonEmpty(a + b) == NonEmpty(a) + NonEmpty(b)
    decreases |a|
  {
    if |a| == 0 {
      assert a + b == b;
    } else {
      assert (a + b)[0] == a[0];
      assert (a + b)[1..] == a[1..] + b;
      NonEmptyAppend(a[1..], b);
    }
  }

  /** Filtering pieces that are all non-empty keeps them all. */
  lemma {:induction false} NonEmptyKeepsAll(ps: seq<Text>)
    requires forall i :: 0 <= i < |ps| ==> |ps[i]| > 0
    ensures NonEmpty(ps) == ps
    decreases |ps|
  {
    if |ps| > 0 {
      NonEmptyKeepsAll(ps[1..]);
      assert [ps[0]] + ps[1..] == ps;
    }
  }

  /** The words of the command. */
  function Words(s: Text): (r: seq<Text>)
    ensures forall i :: 0 <= i < |r| ==> |r[i]| > 0 && NoSpace(r[i])
  {
    NonEmpty(Pieces(s))
  }

  /** Words written out with one space between each two. */
  function Unwords(ws: seq<Text>): Text {
    if |ws| == 0 then [] else Glue(ws)
  }

  /** Non-empty words without spaces, written out with single spaces, are
      split back into the same words. */
  lemma {:induction false} WordsUnwords(ws: seq<Text>)
    requires forall i :: 0 <= i < |ws| ==> |ws[i]| > 0 && NoSpace(ws[i])
    ensures Words(Unwords(ws)) == ws
  {
    if |ws| == 0 {
      assert Pieces([]) == [[]];
    } else {
      PiecesGlue(ws);
      NonEmptyKeepsAll(ws);
    }
  }

  /** An extra space at either end of the command does not change its
      words. */
  lemma {:induction false} SpacesIgnored(s: Text)
    ensures Words(s + [Space]) == Words(s)
    ensures Words([Space] + s) == Words(s)
  {
    assert ([Space] + s)[1..] == s;
    assert Pieces([Space] + s) == [[]] + Pieces(s);
    SpaceAtEnd(s);
    NonEmptyDropsEmptyLast(Pieces(s));
  }

  /** Splitting at a space: the pieces before it, then the pieces after
      it. */
  lemma {:induction false} PiecesAtSpace(s: Text, t: Text)
    ensures Pieces(s + [Space] + t) == Pieces(s) + Pieces(t)
    decreases |s|
  {
    if |s| == 0 {
      assert [] + [Space] + t == [Space] + t;
      assert ([Space] + t)[1..] == t;
    } else {
      assert (s + [Space] + t)[1..] == s[1..] + [Space] + t;
      PiecesAtSpace(s[1..], t);
      PiecesAtSpaceStep(s, t);
    }
  }

  /** The step of `PiecesAtSpace`: the first character goes where it went
      without the text after the space. */
  lemma {:induction false} PiecesAtSpaceStep(s: Text, t: Text)
    requires |s| > 0 && Pieces(s[1..] + [Space] + t) == Pieces(s[1..]) + Pieces(t)
    ensures Pieces(s + [Space] + t) == Pieces(s) + Pieces(t)
  {
    var rest := s[1..] + [Space] + t;
    assert s + [Space] + t == [s[0]] + rest;
    assert s == [s[0]] + s[1..];
    PiecesCons(s[0], rest);
    PiecesCons(s[0], s[1..]);
    ConsJoin(s[0], Pieces(s[1..]), Pieces(t));
  }

  /** Putting a character in front of the pieces and then adding more
      pieces is adding the pieces first. */
  lemma {:induction false} ConsJoin(c: Byte, later: seq<Text>, after: seq<Text>)
    requires |later| >= 1
    ensures (if c == Space then [[]] + (later + after) else [[c] + (later + after)[0]] + (later + after)[1..])
      == (if c == Space then [[]] + later else [[c] + later[0]] + later[1..]) + after
  {
    if c != Space {
      assert (later + after)[0] == later[0];
      assert (later + after)[1..] == later[1..] + after;
    }
  }

  /** The pieces of a text that starts with `c`. */
  lemma {:induction false} PiecesCons(c: Byte, s: Text)
    ensures Pieces([c] + s) == if c == Space then [[]] + Pieces(s) else [[c] + Pieces(s)[0]] + Pieces(s)[1..]
  {
    assert ([c] + s)[0] == c && ([c] + s)[1..] == s;
  }

  /** Two spaces between words split the command like one space: the words
      before the spaces, then the words after them. */
  lemma {:induction false} InnerSpacesIgnored(s: Text, t: Text)
    ensures Words(s + [Space, Space] + t) == Words(s) + Words(t)
    ensures Words(s + [Space] + t) == Words(s) + Words(t)
  {
    assert s + [Space, Space] + t == s + [Space] + ([Space] + t);
    PiecesAtSpace(s, [Space] + t);
    assert ([Space] + t)[1..] == t;
    assert Pieces([Space] + t) == [[]] + Pieces(t);
    NonEmptyAppend(Pieces(s), [[]] + Pieces(t));
    NonEmptyAppend([[]], Pieces(t));
    assert NonEmpty([[]]) == [];
    PiecesAtSpace(s, t);
    NonEmptyAppend(Pieces(s), Pieces(t));
  }

  /** A command has no words exactly when it is all spaces. */
  lemma {:induction false} NoWordsIffBlank(s: Text)
    ensures |Words(s)| == 0 <==> forall i :: 0 <= i < |s| ==> s[i] == Space
    decreases |s|
  {
    if |s| > 0 {
      if s[0] == Space {
        NoWordsIffBlank(s[1..]);
        LeadingSpace(s);
        assert forall i :: 1 <= i < |s| ==> s[i] == s[1..][i - 1];
      } else {
        LeadingWord(s);
      }
    }
  }

  /** A leading space adds no word. */
  lemma {:induction false} LeadingSpace(s: Text)
    requires |s| > 0 && s[0] == Space
    ensures Words(s) == Words(s[1..])
  {
    assert s == [s[0]] + s[1..];
    PiecesCons(s[0], s[1..]);
    NonEmptyAppend([[]], Pieces(s[1..]));
    assert NonEmpty([[]]) == [];
  }

  /** A command that starts with a byte other than a space has a word. */
  lemma {:induction false} LeadingWord(s: Text)
    requires |s| > 0 && s[0] != Space
    ensures |Words(s)| > 0
  {
    assert s == [s[0]] + s[1..];
    PiecesCons(s[0], s[1..]);
    var ps := Pieces(s);
    assert |ps[0]| > 0;
    assert NonEmpty(ps) == [ps[0]] + NonEmpty(ps[1..]);
  }

  /** A space at the end only adds an empty last piece. */
  lemma {:induction false} SpaceAtEnd(s: Text)
    ensures Pieces(s + [Space]) == Pieces(s) + [[]]
    decreases |s|
  {
    if |s| == 0 {
      assert Pieces([Space]) == [[]] + Pieces([]);
    } else {
      assert (s + [Space])[1..] == s[1..] + [Space];
      SpaceAtEnd(s[1..]);
      var later := Pieces(s[1..]);
      if s[0] != Space {
        assert (later + [[]])[1..] == later[1..] + [[]];
      }
    }
  }

  /** An empty last piece is filtered out. */
  lemma {:induction false} NonEmptyDropsEmptyLast(ps: seq<Text>)
    ensures NonEmpty(ps + [[]]) == NonEmpty(ps)
    decreases |ps|
  {
    if |ps| == 0 {
      assert NonEmpty([[]]) == NonEmpty([]);
    } else {
      assert (ps + [[]])[1..] == ps[1..] + [[]];
      NonEmptyDropsEmptyLast(ps[1..]);
    }
  }

  /** The only command the receiver knows. */
  function DeployWord(): (w: Text)
    ensures |w| == 6 && NoSpace(w)
    ensures forall i :: 0 <= i < |w| ==> w[i] < 0x80
  {
    Ascii("deploy")
  }

  /** How a session ends. */
  datatype Session =
    | NoCommand                  // no `SSH_ORIGINAL_COMMAND`, one that is not UTF-8, or no word in it
    | UnknownCommand(word: Text) // a first word other than `deploy`
    | Deployed(run: Plans.Run)   // `deploy` with the words after it

  /** The command handling of `main`, after the configuration is loaded.
      `command` is the raw value of `SSH_ORIGINAL_COMMAND`: `env::var`
      refuses a value that is not UTF-8 just as it refuses a missing one. */
  function Handle(env: Plans.Env, plans: map<Text, Plans.Plan>, command: Option<Text>, input: seq<Byte>): (r: Session)
    ensures command.None? || !Utf8.Valid(command.value) ==> r.NoCommand?
    ensures r.UnknownCommand? ==> r.word != DeployWord() && |r.word| > 0
    ensures !r.NoCommand? ==> command.Some? && Utf8.Valid(command.value) && |Words(command.value)| >= 1
    ensures r.UnknownCommand? ==> r.word == Words(command.value)[0]
    ensures r.Deployed? ==> Words(command.value)[0] == DeployWord()
  {
    if command.None? || !Utf8.Valid(command.value) then NoCommand
    else
      var words := Words(command.value);
      if |words| == 0 then NoCommand
      else if words[0] != DeployWord() then UnknownCommand(words[0])
      else Deployed(Plans.Deploy(env, plans, words[1..], input))
  }

  /** `ExitCode::SUCCESS`: a deploy that did not fail. */
  predicate Success(s: Session) {
    s.Deployed? && s.run.failure.None?
  }

  /** The words of a session that succeeds: `deploy`, then a plan that ran
      to the end, or no plan, or a plan the configuration lacks. */
  lemma {:induction false} SuccessMeans(env: Plans.Env, plans: map<Text, Plans.Plan>, command: Option<Text>, input: seq<Byte>)
    requires Success(Handle(env, plans, command, input))
    ensures command.Some? && Utf8.Valid(command.value)
    ensures |Words(command.value)| >= 1 && Words(command.value)[0] == DeployWord()
    ensures var params := Words(command.value)[1..];
      || |params| == 0
      || params[0] !in plans
      || Handle(env, plans, command, input).run.done == |plans[params[0]].steps|
  {
  }

  /** `deploy` with no plan name, or with one that is not configured, does
      nothing and still ends successfully. */
  lemma {:induction false} DeployWithoutPlanSucceeds(env: Plans.Env, plans: map<Text, Plans.Plan>, command: Text,
                                  params: seq<Text>, input: seq<Byte>)
    requires Utf8.Valid(command) && Words(command) == [DeployWord()] + params
    requires |params| == 0 || params[0] !in plans
    ensures Success(Handle(env, plans, Some(command), input))
    ensures Handle(env, plans, Some(command), input).run.log == []
  {
    HandleDeploy(env, plans, Some(command), params, input);
  }

  /** The bare command `deploy` succeeds, whatever the configuration. */
  lemma {:induction false} BareDeploySucceeds(env: Plans.Env, plans: map<Text, Plans.Plan>, input: seq<Byte>)
    ensures Success(Handle(env, plans, Some(DeployWord()), input))
  {
    DeployIsOneWord();
    DeployWithoutPlanSucceeds(env, plans, DeployWord(), [], input);
  }

  lemma {:induction false} DeployIsOneWord()
    ensures Utf8.Valid(DeployWord())
    ensures Words(DeployWord()) == [DeployWord()] + []
  {
    Utf8.AsciiValid(DeployWord());
    WordsUnwords([DeployWord()]);
    assert Unwords([DeployWord()]) == DeployWord();
    assert [DeployWord()] + [] == [DeployWord()];
  }

  /** A command whose words are `deploy` and then `params` runs the deploy
      with `params`. */
  lemma {:induction false} HandleDeploy(env: Plans.Env, plans: map<Text, Plans.Plan>, command: Option<Text>,
                     params: seq<Text>, input: seq<Byte>)
    requires command.Some? && Utf8.Valid(command.value) && Words(command.value) == [DeployWord()] + params
    ensures Handle(env, plans, command, input) == Deployed(Plans.Deploy(env, plans, params, input))
  {
    var words := Words(command.value);
    assert words[0] == DeployWord() && words[1..] == params;
    assert Handle(env, plans, command, input) == Deployed(Plans.Deploy(env, plans, words[1..], input));
  }
}

=== FILE: stream.dfy ===
/**
 Reading fixed-size fields from the front of an input stream.

 The receiver reads standard input field by field; here the input is the
 sequence of bytes still unread, and each read returns the field together
 with the input that follows it.
 */
module Stream {
  import opened Bytes
  import opened Failures

  /** A value read from the front of the input, and the input after it. */
  datatype Parsed<+T> = Parsed(value: T, rest: seq<Byte>)

  /** `rest` is what remains of `s` after reading some of its front. */
  ghost predicate Suffix(rest: seq<Byte>, s: seq<Byte>) {
    exists front :: front + rest == s
  }

  lemma {:induction false} SuffixTransitive(a: seq<Byte>, b: seq<Byte>, c: seq<Byte>)
    requires Suffix(a, b) && Suffix(b, c)
    ensures Suffix(a, c)
  {
    var p :| p + a == b;
    var q :| q + b == c;
    assert (q + p) + a == c;
  }

  /** `read_exact` of `n` bytes: fails exactly when fewer than `n` remain. */
  function ReadExact(s: seq<Byte>, n: nat): (r: Result<Parsed<seq<Byte>>>)
    ensures r.Ok? <==> n <= |s|
    ensures r.Ok? ==> |r.value.value| == n && |r.value.rest| == |s| - n
    ensures r.Ok? ==> r.value.value == s[..n] && r.value.value + r.value.rest == s
    ensures r.Err? ==> r.error == UnexpectedEnd
  {
    if n <= |s| then Ok(Parsed(s[..n], s[n..])) else Err(UnexpectedEnd)
  }

  /** One byte, as `read_exact` into a one-byte buffer. */
  function ReadByte(s: seq<Byte>): (r: Result<Parsed<Byte>>)
    ensures r.Ok? <==> 1 <= |s|
    ensures r.Ok? ==> |r.value.rest| == |s| - 1
  {
    var p :- ReadExact(s, 1);
    Ok(Parsed(p.value[0], p.rest))
  }

  /** A big-endian `u32` (`read_u32::<BigEndian>`). */
  function ReadU32(s: seq<Byte>): (r: Result<Parsed<U32>>)
    ensures r.Ok? <==> 4 <= |s|
    ensures r.Ok? ==> |r.value.rest| == |s| - 4
  {
    var p :- ReadExact(s, 4);
    Ok(Parsed(FromBigEndian32(p.value), p.rest))
  }

  /** A word read is the big-endian spelling of the word. */
  lemma {:induction false} ReadU32Shape(s: seq<Byte>)
    requires 4 <= |s|
    ensures s == BigEndian32(ReadU32(s).value.value) + ReadU32(s).value.rest
  {
    BigEndian32Onto(s[..4]);
    assert s == s[..4] + s[4..];
  }

  /** The bytes read and the bytes after them make up the input. */
  lemma {:induction false} ReadExactShape(s: seq<Byte>, n: nat)
    requires n <= |s|
    ensures ReadExact(s, n).value.value + ReadExact(s, n).value.rest == s
  {
  }

  /** Reading `n` bytes from `a + rest` with `|a| == n` gives `a`, leaving `rest`. */
  lemma {:induction false} ReadExactPrefix(a: seq<Byte>, rest: seq<Byte>)
    ensures ReadExact(a + rest, |a|) == Ok(Parsed(a, rest))
  {
    assert (a + rest)[..|a|] == a && (a + rest)[|a|..] == rest;
  }

  /** A written word is read back, leaving what follows it. */
  lemma {:induction false} ReadU32Written(x: U32, rest: seq<Byte>)
    ensures ReadU32(BigEndian32(x) + rest) == Ok(Parsed(x, rest))
  {
    ReadExactPrefix(BigEndian32(x), rest);
    BigEndian32RoundTrip(x);
  }

  /** The first byte of `[b] + rest` is `b`. */
  lemma {:induction false} ReadByteFront(b: Byte, rest: seq<Byte>)
    ensures ReadByte([b] + rest) == Ok(Parsed(b, rest))
  {
    ReadExactPrefix([b], rest);
  }

  /** Concatenation regrouped to the right. */
  lemma {:induction false} Regroup(a: seq<Byte>, b: seq<Byte>, c: seq<Byte>, d: seq<Byte>)
    ensures a + b + c + d == a + (b + (c + d))
  {
  }

  /** Concatenation of the fields of a frame head, regrouped to the left. */
  lemma {:induction false} RegroupHead(a: seq<Byte>, b: seq<Byte>, c: seq<Byte>, d: seq<Byte>, e: seq<Byte>, f: seq<Byte>)
    ensures a + b + c + (d + (e + f)) == a + b + c + d + e + f
  {
  }

  /** Concatenation of the fields of a frame, regrouped to the left. */
  lemma {:induction false} RegroupFrame(a: seq<Byte>, b: seq<Byte>, c: seq<Byte>, d: seq<Byte>, e: seq<Byte>, f: seq<Byte>, g: seq<Byte>)
    ensures a + b + c + d + e + (f + g) == a + b + c + d + e + f + g
  {
  }

  /** What follows a front part is a suffix. */
  lemma {:induction false} SuffixAfter(a: seq<Byte>, rest: seq<Byte>)
    ensures Suffix(rest, a + rest)
  {
  }

  /** `count` values read one after another by `read`, each from what the
      previous one left; the first failure ends the reading. */
  function Repeat<T>(read: seq<Byte> -> Result<Parsed<T>>, s: seq<Byte>, count: nat): (r: Result<Parsed<seq<T>>>)
    ensures r.Ok? ==> |r.value.value| == count
    decreases count
  {
    if count == 0 then Ok(Parsed([], s))
    else
      var first :- read(s);
      var more :- Repeat(read, first.rest, count - 1);
      Ok(Parsed([first.value] + more.value, more.rest))
  }

  /** `items` in front of the values of `r`, if `r` succeeded. */
  function Prepend<T>(items: seq<T>, r: Result<Parsed<seq<T>>>): Result<Parsed<seq<T>>> {
    match r
    case Err(e) => Err(e)
    case Ok(v) => Ok(Parsed(items + v.value, v.rest))
  }

  lemma {:induction false} PrependTwice<T>(a: seq<T>, b: seq<T>, r: Result<Parsed<seq<T>>>)
    ensures Prepend(a, Prepend(b, r)) == Prepend(a + b, r)
  {
    if r.Ok? {
      assert a + (b + r.value.value) == (a + b) + r.value.value;
    }
  }

  /** The writings of `items` by `write`, one after another. */
  function Concat<T>(write: T -> seq<Byte>, items: seq<T>): seq<Byte> {
    if |items| == 0 then [] else write(items[0]) + Concat(write, items[1..])
  }

  /** The writings of `items` and a tail, around the `q`-th item. */
  lemma {:induction false} ConcatSplitAt<T>(write: T -> seq<Byte>, items: seq<T>, q: nat, tail: seq<Byte>)
    requires q < |items|
    ensures Concat(write, items) + tail
      == Concat(write, items[..q]) + (write(items[q]) + (Concat(write, items[q + 1..]) + tail))
    decreases q
  {
    var rest := items[1..];
    assert Concat(write, items) + tail == write(items[0]) + (Concat(write, rest) + tail);
    if q == 0 {
      assert items[..0] == [] && rest == items[q + 1..];
    } else {
      ConcatSplitAt(write, rest, q - 1, tail);
      assert rest[..q - 1] == items[..q][1..];
      assert rest[q - 1] == items[q] && rest[q..] == items[q + 1..];
      assert items[..q][0] == items[0];
      assert Concat(write, items[..q]) == write(items[0]) + Concat(write, rest[..q - 1]);
    }
  }

  /** When `read` reads back each of `items` from its writing, whatever
      follows it, the writings of `items` are read back as `items`, and the
      values after them are read from what follows. */
  lemma {:induction false} RepeatThen<T>(read: seq<Byte> -> Result<Parsed<T>>, write: T -> seq<Byte>,
                                         items: seq<T>, tail: seq<Byte>, more: nat)
    requires forall i, t :: 0 <= i < |items| ==> read(write(items[i]) + t) == Ok(Parsed(items[i], t))
    ensures Repeat(read, Concat(write, items) + tail, |items| + more) == Prepend(items, Repeat(read, tail, more))
    decreases |items|
  {
    if |items| == 0 {
      assert Concat(write, items) + tail == tail;
      var r := Repeat(read, tail, more);
      assert r.Ok? ==> items + r.value.value == r.value.value;
    } else {
      var later := Concat(write, items[1..]) + tail;
      assert Concat(write, items) + tail == write(items[0]) + later;
      assert read(write(items[0]) + later) == Ok(Parsed(items[0], later));
      forall i, t | 0 <= i < |items[1..]|
        ensures read(write(items[1..][i]) + t) == Ok(Parsed(items[1..][i], t))
      {
        assert items[1..][i] == items[i + 1];
      }
      RepeatThen(read, write, items[1..], tail, more);
      RepeatStep(read, write(items[0]) + later, items[0], later, |items[1..]| + more);
      PrependTwice([items[0]], items[1..], Repeat(read, tail, more));
      assert [items[0]] + items[1..] == items;
    }
  }

  /** After a value is read, the others are read from what follows it. */
  lemma {:induction false} RepeatStep<T>(read: seq<Byte> -> Result<Parsed<T>>, s: seq<Byte>, v: T, after: seq<Byte>, n: nat)
    requires read(s) == Ok(Parsed(v, after))
    ensures Repeat(read, s, n + 1) == Prepend([v], Repeat(read, after, n))
  {
  }

  /** When every value `read` accepts leaves a suffix of its input, so do
      all the values `Repeat` accepts. */
  lemma {:induction false} RepeatSuffix<T>(read: seq<Byte> -> Result<Parsed<T>>, s: seq<Byte>, count: nat)
    requires forall t :: read(t).Ok? ==> Suffix(read(t).value.rest, t)
    requires Repeat(read, s, count).Ok?
    ensures Suffix(Repeat(read, s, count).value.rest, s)
    decreases count
  {
    if count == 0 {
      assert [] + s == s;
    } else {
      var first := read(s).value;
      RepeatSuffix(read, first.rest, count - 1);
      SuffixTransitive(Repeat(read, s, count).value.rest, first.rest, s);
    }
  }

  /** When every value `read` accepts has property `p`, so do all the
      values `Repeat` accepts. */
  lemma {:induction false} RepeatAll<T>(read: seq<Byte> -> Result<Parsed<T>>, p: T -> bool, s: seq<Byte>, count: nat)
    requires forall t :: read(t).Ok? ==> p(read(t).value.value)
    requires Repeat(read, s, count).Ok?
    ensures forall i :: 0 <= i < count ==> p(Repeat(read, s, count).value.value[i])
    decreases count
  {
    if count > 0 {
      var first := read(s).value;
      RepeatAll(read, p, first.rest, count - 1);
      var values := Repeat(read, s, count).value.value;
      assert values == [first.value] + Repeat(read, first.rest, count - 1).value.value;
      forall i | 0 <= i < count
        ensures p(values[i])
      {
        if i > 0 {
          assert values[i] == Repeat(read, first.rest, count - 1).value.value[i - 1];
        }
      }
    }
  }
}

=== FILE: utf8.dfy ===
/**
 UTF-8, as `String::from_utf8` checks it and as `str::bytes` produces it.

 The well-formed byte sequences are those of section 4 of RFC 3629: no
 overlong forms, no surrogates (U+D800..U+DFFF), nothing above U+10FFFF.
 A Dafny `char` is a Unicode scalar value, so a Dafny `string` stands for a
 Rust `String` before encoding.
 */
module Utf8 {
  import opened Bytes

  /** A continuation byte, `10xxxxxx`. */
  predicate IsTail(b: Byte) {
    0x80 <= b <= 0xBF
  }

  /** The number of bytes of the well-formed character at the front of `s`,
      or 0 if the front of `s` is not one. */
  function Width(s: seq<Byte>): (w: nat)
    ensures w <= |s| && w <= 4
  {
    if |s| == 0 then 0
    else if s[0] <= 0x7F then 1
    else if 0xC2 <= s[0] <= 0xDF then
      if 2 <= |s| && IsTail(s[1]) then 2 else 0
    else if 0xE0 <= s[0] <= 0xEF then
      if 3 <= |s| && SecondLow(s[0]) <= s[1] <= SecondHigh(s[0]) && IsTail(s[2]) then 3 else 0
    else if 0xF0 <= s[0] <= 0xF4 then
      if 4 <= |s| && SecondLow(s[0]) <= s[1] <= SecondHigh(s[0]) && IsTail(s[2]) && IsTail(s[3]) then 4 else 0
    else 0
  }

  /** The least second byte allowed after a three- or four-byte lead byte. */
  function SecondLow(lead: Byte): Byte {
    if lead == 0xE0 then 0xA0 else if lead == 0xF0 then 0x90 else 0x80
  }

  /** The greatest second byte allowed after a three- or four-byte lead byte. */
  function SecondHigh(lead: Byte): Byte {
    if lead == 0xED then 0x9F else if lead == 0xF4 then 0x8F else 0xBF
  }

  /** The rows of the table in section 4 of RFC 3629, read independently of
      `Width`: one of UTF8-1, UTF8-2, UTF8-3 or UTF8-4 starts `s`. */
  predicate WellFormedAt(s: seq<Byte>)
    requires |s| > 0
  {
    || s[0] <= 0x7F
    || (2 <= |s| && 0xC2 <= s[0] <= 0xDF && IsTail(s[1]))
    || (3 <= |s| && s[0] == 0xE0 && 0xA0 <= s[1] <= 0xBF && IsTail(s[2]))
    || (3 <= |s| && (0xE1 <= s[0] <= 0xEC || 0xEE <= s[0] <= 0xEF) && IsTail(s[1]) && IsTail(s[2]))
    || (3 <= |s| && s[0] == 0xED && 0x80 <= s[1] <= 0x9F && IsTail(s[2]))
    || (4 <= |s| && s[0] == 0xF0 && 0x90 <= s[1] <= 0xBF && IsTail(s[2]) && IsTail(s[3]))
    || (4 <= |s| && 0xF1 <= s[0] <= 0xF3 && IsTail(s[1]) && IsTail(s[2]) && IsTail(s[3]))
    || (4 <= |s| && s[0] == 0xF4 && 0x80 <= s[1] <= 0x8F && IsTail(s[2]) && IsTail(s[3]))
  }

  /** `Width` finds a character exactly where the table has one. */
  lemma {:induction false} WidthMatchesTable(s: seq<Byte>)
    ensures Width(s) == 0 <==> (|s| == 0 || !WellFormedAt(s))
  {
  }

  /** `s` is a sequence of well-formed characters: `String::from_utf8` accepts it. */
  predicate Valid(s: seq<Byte>)
    decreases |s|
  {
    |s| == 0 || (Width(s) > 0 && Valid(s[Width(s)..]))
  }

  /** Bytes below 0x80 are one-byte characters, so ASCII text is valid. */
  lemma {:induction false} AsciiValid(s: seq<Byte>)
    requires forall i :: 0 <= i < |s| ==> s[i] < 0x80
    ensures Valid(s)
    decreases |s|
  {
    if |s| > 0 {
      AsciiValid(s[1..]);
    }
  }

  /** The UTF-8 encoding of one scalar value. */
  function EncodeChar(c: char): (r: seq<Byte>)
    ensures 1 <= |r| <= 4
  {
    var n := c as int;
    if n < 0x80 then [n]
    else if n < 0x800 then [0xC0 + n / 0x40, 0x80 + n % 0x40]
    else if n < 0x1_0000 then [0xE0 + n / 0x1000, 0x80 + (n / 0x40) % 0x40, 0x80 + n % 0x40]
    else [0xF0 + n / 0x4_0000, 0x80 + (n / 0x1000) % 0x40, 0x80 + (n / 0x40) % 0x40, 0x80 + n % 0x40]
  }

  /** The bytes of a string (`str::bytes`). */
  function EncodeString(s: string): (r: seq<Byte>)
    ensures |s| <= |r| <= 4 * |s|
  {
    if |s| == 0 then [] else EncodeChar(s[0]) + EncodeString(s[1..])
  }

  /** The bytes of every string are valid UTF-8. */
  lemma {:induction false} EncodeStringValid(s: string)
    ensures Valid(EncodeString(s))
    decreases |s|
  {
    if |s| > 0 {
      var head := EncodeChar(s[0]);
      var tail := EncodeString(s[1..]);
      EncodeStringValid(s[1..]);
      CharWidth(s[0], tail);
      assert (head + tail)[|head|..] == tail;
    }
  }

  /** The encoding of a character is one well-formed character, whatever follows. */
  lemma {:induction false} CharWidth(c: char, rest: seq<Byte>)
    ensures Width(EncodeChar(c) + rest) == |EncodeChar(c)|
  {
    var n := c as int;
    var e := EncodeChar(c);
    if n < 0x80 {
    } else if n < 0x800 {
      assert 0xC2 <= e[0] <= 0xDF;
    } else if n < 0x1_0000 {
      assert n < 0xD800 || 0xE000 <= n;
      if n / 0x1000 == 0 {
        assert (n / 0x40) % 0x40 >= 0x20;
      }
      if n / 0x1000 == 0xD {
        assert (n / 0x40) % 0x40 < 0x20;
      }
    } else {
      assert n < 0x11_0000;
      if n / 0x4_0000 == 0 {
        assert (n / 0x1000) % 0x40 >= 0x10;
      }
      if n / 0x4_0000 == 4 {
        assert (n / 0x1000) % 0x40 < 0x10;
      }
    }
  }

  /** The scalar value of the well-formed character at the front of `s`. */
  function DecodeChar(s: seq<Byte>): (c: char)
    requires Width(s) > 0
    ensures EncodeChar(c) == s[..Width(s)]
  {
    var w := Width(s);
    if w == 1 then
      (s[0] as char)
    else if w == 2 then
      var n := Payload2(s[0], s[1]);
      assert EncodeChar(n as char) == [0xC0 + n / 0x40, 0x80 + n % 0x40];
      n as char
    else if w == 3 then
      var n := Payload3(s[0], s[1], s[2]);
      assert EncodeChar(n as char) == [0xE0 + n / 0x1000, 0x80 + (n / 0x40) % 0x40, 0x80 + n % 0x40];
      n as char
    else
      var n := Payload4(s[0], s[1], s[2], s[3]);
      assert EncodeChar(n as char) == [0xF0 + n / 0x4_0000, 0x80 + (n / 0x1000) % 0x40, 0x80 + (n / 0x40) % 0x40, 0x80 + n % 0x40];
      n as char
  }

  /** The scalar value of a two-byte character. */
  function Payload2(b0: Byte, b1: Byte): (n: int)
    requires 0xC2 <= b0 <= 0xDF && IsTail(b1)
    ensures 0x80 <= n < 0x800
    ensures 0xC0 + n / 0x40 == b0 && 0x80 + n % 0x40 == b1
  {
    (b0 as int - 0xC0) * 0x40 + (b1 as int - 0x80)
  }

  /** The scalar value of a three-byte character. */
  function Payload3(b0: Byte, b1: Byte, b2: Byte): (n: int)
    requires 0xE0 <= b0 <= 0xEF && SecondLow(b0) <= b1 <= SecondHigh(b0) && IsTail(b2)
    ensures 0x800 <= n < 0x1_0000 && (n < 0xD800 || 0xE000 <= n)
    ensures 0xE0 + n / 0x1000 == b0 && 0x80 + (n / 0x40) % 0x40 == b1 && 0x80 + n % 0x40 == b2
  {
    var hi := b0 as int - 0xE0;
    var mid := b1 as int - 0x80;
    var lo := b2 as int - 0x80;
    var n := hi * 0x1000 + mid * 0x40 + lo;
    assert n / 0x40 == hi * 0x40 + mid;
    assert n / 0x1000 == hi;
    n
  }

  /** The scalar value of a four-byte character. */
  function Payload4(b0: Byte, b1: Byte, b2: Byte, b3: Byte): (n: int)
    requires 0xF0 <= b0 <= 0xF4 && SecondLow(b0) <= b1 <= SecondHigh(b0) && IsTail(b2) && IsTail(b3)
    ensures 0x1_0000 <= n < 0x11_0000
    ensures 0xF0 + n / 0x4_0000 == b0 && 0x80 + (n / 0x1000) % 0x40 == b1
    ensures 0x80 + (n / 0x40) % 0x40 == b2 && 0x80 + n % 0x40 == b3
  {
    var top := b0 as int - 0xF0;
    var hi := b1 as int - 0x80;
    var mid := b2 as int - 0x80;
    var lo := b3 as int - 0x80;
    var n := top * 0x4_0000 + hi * 0x1000 + mid * 0x40 + lo;
    assert n / 0x40 == top * 0x1000 + hi * 0x40 + mid;
    assert n / 0x1000 == top * 0x40 + hi;
    assert n / 0x4_0000 == top;
    n
  }

  /** The string whose bytes `s` are. */
  function DecodeString(s: seq<Byte>): (r: string)
    requires Valid(s)
    ensures EncodeString(r) == s
    decreases |s|
  {
    if |s| == 0 then ""
    else
      var w := Width(s);
      var c := DecodeChar(s);
      var tail := DecodeString(s[w..]);
      DecodeStep(s, c, tail);
      [c] + tail
  }

  /** A character followed by a string encodes the bytes of both. */
  lemma {:induction false} DecodeStep(s: seq<Byte>, c: char, tail: string)
    requires Width(s) > 0
    requires EncodeChar(c) == s[..Width(s)] && EncodeString(tail) == s[Width(s)..]
    ensures EncodeString([c] + tail) == s
  {
    var r := [c] + tail;
    assert r[0] == c && r[1..] == tail;
    assert s == s[..Width(s)] + s[Width(s)..];
  }

  /** Exactly the encodings of strings are valid: `from_utf8` accepts a byte
      sequence if and only if some `String` has those bytes. */
  lemma {:induction false} ValidIsEncoded(s: seq<Byte>)
    ensures Valid(s) <==> exists t: string :: EncodeString(t) == s
  {
    if Valid(s) {
      var t := DecodeString(s);
      assert EncodeString(t) == s;
    } else {
      forall t: string
        ensures EncodeString(t) != s
      {
        EncodeStringValid(t);
      }
    }
  }
}

=== FILE: varint.dfy ===
/**
 Unsigned variable-length integers, standing for `write_varint` and
 `read_varint` on a `usize`.

 The format is unsigned LEB128 (section 7.6 of the DWARF 4 standard, the
 same as Protocol Buffers base-128 varints): seven payload bits per byte,
 least significant group first, the high bit set on every byte but the last.
 The reader defined here gives up after ten bytes, the most a 64-bit value
 needs, and rejects values of 2^64 and above; how the library the program
 uses treats those inputs is not part of this model.
 */
module Varint {
  import opened Bytes
  import opened Failures
  import opened Stream

  /** The most bytes a reader consumes for one value. */
  const MaxLength: nat := 10

  /** Values must fit in a 64-bit `usize`. */
  const Limit: nat := 0x1_0000_0000_0000_0000

  /** `128^k`. */
  function Pow128(k: nat): (r: nat)
    ensures r >= 1
  {
    if k == 0 then 1 else 0x80 * Pow128(k - 1)
  }

  /** The shortest encoding of `n`. */
  function Encode(n: nat): (r: seq<Byte>)
    ensures Terminated(r)
    decreases n
  {
    if n < 0x80 then [n] else [0x80 + n % 0x80] + Encode(n / 0x80)
  }

  /** Every byte but the last carries the continuation bit; the last does not. */
  predicate Terminated(e: seq<Byte>) {
    && 1 <= |e|
    && e[|e| - 1] < 0x80
    && forall i :: 0 <= i < |e| - 1 ==> e[i] >= 0x80
  }

  /** `e` is a varint a reader accepts, and it carries `n`. */
  predicate Encodes(e: seq<Byte>, n: nat) {
    Terminated(e) && |e| <= MaxLength && Value(e) == n && n < Limit
  }

  /** The number carried by the payload bits of `e`, least significant group first. */
  function Value(e: seq<Byte>): nat {
    if |e| == 0 then 0 else e[0] % 0x80 + 0x80 * Value(e[1..])
  }

  /** The number of bytes of the varint at the front of `s`, looking at most
      `budget` bytes ahead. */
  function Scan(s: seq<Byte>, budget: nat): (r: Result<nat>)
    ensures r.Ok? ==> 1 <= r.value <= budget && r.value <= |s|
    ensures r.Err? ==> r.error == UnexpectedEnd || r.error == BadVarint
  {
    if budget == 0 then Err(BadVarint)
    else if |s| == 0 then Err(UnexpectedEnd)
    else if s[0] < 0x80 then Ok(1)
    else
      var k :- Scan(s[1..], budget - 1);
      Ok(k + 1)
  }

  /** What `Scan` finds is a terminated group. */
  lemma {:induction false} ScanFindsTerminated(s: seq<Byte>, budget: nat)
    requires Scan(s, budget).Ok?
    ensures Terminated(s[..Scan(s, budget).value])
    decreases budget
  {
    if s[0] >= 0x80 {
      var k := Scan(s[1..], budget - 1).value;
      ScanFindsTerminated(s[1..], budget - 1);
      assert s[..k + 1] == [s[0]] + s[1..][..k];
    }
  }

  /** The model's `read_varint::<usize>`: a terminated group of at most ten
      bytes whose value fits in 64 bits, and the input after it. */
  function Read(s: seq<Byte>): (r: Result<Parsed<nat>>)
    ensures r.Ok? ==> r.value.value < Limit && |r.value.rest| < |s|
    ensures r.Err? ==> r.error == UnexpectedEnd || r.error == BadVarint
  {
    var k :- Scan(s, MaxLength);
    var v := Value(s[..k]);
    if v >= Limit then Err(BadVarint) else Ok(Parsed(v, s[k..]))
  }

  /** What was read is a readable spelling of the value, followed by the
      rest of the input. */
  lemma {:induction false} ReadShape(s: seq<Byte>)
    requires Read(s).Ok?
    ensures exists e :: Encodes(e, Read(s).value.value) && s == e + Read(s).value.rest
  {
    var k := Scan(s, MaxLength).value;
    ScanFindsTerminated(s, MaxLength);
    assert s == s[..k] + s[k..];
    assert Encodes(s[..k], Read(s).value.value);
  }

  /** The payload of an encoding is the number encoded. */
  lemma {:induction false} EncodeValue(n: nat)
    ensures Value(Encode(n)) == n
    decreases n
  {
    if n >= 0x80 {
      EncodeValue(n / 0x80);
      assert Encode(n)[1..] == Encode(n / 0x80);
    }
  }

  /** A number below `128^k` needs at most `k` bytes. */
  lemma {:induction false} EncodeLength(n: nat, k: nat)
    requires 1 <= k && n < Pow128(k)
    ensures |Encode(n)| <= k
    decreases k
  {
    if n >= 0x80 {
      assert k >= 2;
      EncodeLength(n / 0x80, k - 1);
    }
  }

  /** Every 64-bit value is written in at most ten bytes. */
  lemma {:induction false} EncodeFits(n: nat)
    requires n < Limit
    ensures |Encode(n)| <= MaxLength
  {
    assert Pow128(10) == 0x40_0000_0000_0000_0000;
    EncodeLength(n, 10);
  }

  /** A terminated group within the budget is found, whatever follows it. */
  lemma {:induction false} ScanTerminated(e: seq<Byte>, rest: seq<Byte>, budget: nat)
    requires Terminated(e) && |e| <= budget
    ensures Scan(e + rest, budget) == Ok(|e|)
    decreases |e|
  {
    if |e| > 1 {
      assert (e + rest)[1..] == e[1..] + rest;
      assert Terminated(e[1..]);
      ScanTerminated(e[1..], rest, budget - 1);
    }
  }

  /** Any terminated group of at most ten bytes whose value fits in 64 bits
      is read as that value, and the input after it is left unread. */
  lemma {:induction false} ReadEncoding(e: seq<Byte>, n: nat, rest: seq<Byte>)
    requires Encodes(e, n)
    ensures Read(e + rest) == Ok(Parsed(n, rest))
  {
    ScanTerminated(e, rest, MaxLength);
    assert (e + rest)[..|e|] == e;
    assert (e + rest)[|e|..] == rest;
  }

  /** Reading back what was written gives the number and exactly the input
      that followed it. */
  lemma {:induction false} RoundTrip(n: nat, rest: seq<Byte>)
    requires n < Limit
    ensures Encodes(Encode(n), n)
    ensures Read(Encode(n) + rest) == Ok(Parsed(n, rest))
  {
    EncodeFits(n);
    EncodeValue(n);
    ReadEncoding(Encode(n), n, rest);
  }
}

=== FILE: wire.dfy ===
/**
 The byte-level format both binaries share, and the checksum it carries.

 A stream is a five-byte header, a varint file count, then one frame per
 file: a compression byte, a varint name length, the name bytes, the CRC-32
 of the content as four big-endian bytes, a varint content length, and the
 content itself.
 */
module Wire {
  import opened Bytes

  /** The protocol magic, `FE ED BE EF`. */
  const Magic: seq<Byte> := [0xFE, 0xED, 0xBE, 0xEF]

  /** The protocol version. */
  const Version: Byte := 0x02

  /** The first five bytes of every stream. */
  const Header: seq<Byte> := Magic + [Version]

  /** The only compression code: none. */
  const NoCompression: Byte := 0x00

  /** The longest name a receiver accepts, in bytes. */
  const MaxNameLength: nat := 512

  /** The largest content a receiver accepts, in bytes (100 MiB). */
  const MaxFileLength: nat := 104_857_600

  /** A CRC-32 over bytes. It stands for the IEEE 802.3 CRC (clause 3.2.9
      of IEEE 802.3); nothing here depends on which function it is. */
  type Crc32 = seq<Byte> -> U32

  /** The state of a streaming checksum (`crc32::Digest`): the bytes
      written into it so far. */
  datatype Digest = Digest(written: seq<Byte>) {

    /** Feed one more chunk. */
    function Write(chunk: seq<Byte>): Digest {
      Digest(written + chunk)
    }

    /** The checksum of everything written (`sum32`). */
    function Sum32(crc: Crc32): U32 {
      crc(written)
    }
  }

  /** One transferred file: its name as UTF-8 bytes and its content. */
  datatype FileEntry = FileEntry(name: Text, content: seq<Byte>)

  /** The names of `files`, in order. */
  function Names(files: seq<FileEntry>): (r: seq<Text>)
    ensures |r| == |files|
    ensures forall i :: 0 <= i < |files| ==> r[i] == files[i].name
  {
    if |files| == 0 then [] else [files[0].name] + Names(files[1..])
  }
}
